=== FILE: README.md ===
# Verified model of the platformer's movement and enemy core

This project models, in Dafny, the core game logic of a 2-D action platformer:

- **the player's locomotion controller** (`PlayerMovement`): the fixed-tick `Move` with its flip, dash, midair-jump, wall-jump, crouch, morph-ball and ledge-hang/climb steps; the per-frame ledge detection and buff clocks; the contact-sensor edges; the five scheduled callbacks; and the jump and speed buffs;
- **the enemy life cycle and its installed state object** (`EnemyBase`, `EnemyBase<T>`), for a Gunner: health and hits, death and the delayed disable, re-enabling, `SetState` replacement, the lazy `StateStart` before the update hooks, and the mass and constraint lock while the player touches the enemy;
- **the Gunner's patrol policy** (`GunnerPatrol`): patrol end points, the direction-aware end-point test with its 0.05 tolerance, and the patrol → chase/idle transitions, where the later `SetState` wins;
- **the timed button** (`TimedButton`): press, release and the per-frame countdown that releases it;
- **the damage upgrade pickup** (`DamageUpgrade.SetUpgrade`): the find-first-and-mark loop over the player's array of collected upgrades.

Each stateful script has two parts:

- a module of pure functions over a snapshot value (`PlayerMovementSpec`, `EnemyBaseSpec`, `TimedButtonSpec`), with lemmas about those functions;
- a class whose fields are the script's fields and whose methods update them step by step, as the script does.

Every method is proved to leave the state that the matching function describes (`ensures State() == Spec.X(old(State()), …)`). So what is proved about the functions holds of the methods.

The main results are:

- **Player.** Every state reachable from `Start` through any run of ticks, frames, contact edges, callbacks and buffs keeps its invariant:
  - the ledge and morph-ledge classifications never hold together;
  - the two hang flags never hold together;
  - crouched and morphed never hold together;
  - the input-frame counters are never negative.

  Facing never changes while the player hangs from a ledge. The midair-jump count drops by at most one per tick and never below zero. Crouch and morph actions fire only on the first frame of a hold. The dash-direction flags exclude each other only when no dash press overlaps a running dash, and a lemma exhibits the tick that raises both.
- **Enemy.** A dead enemy ignores hits and ticks. Health never drops below zero. A run of hits records exactly one death when the enemy goes from alive to dead, and none otherwise. The state object is started lazily, exactly before the first hook that needs it. The contact lock is undone on separation.
- **Patrol.** The state after a patrol tick is Idle whenever a wall, a missing floor or the end point ahead is met, even if the player was seen in the same tick. Otherwise it is Chase when the player was seen, and unchanged when not.
- **Button.** After any run of frames, the button is still pressed exactly when the frames since the press add up to less than its cooldown.
- **Upgrade.** Only the first slot that holds the upgrade is marked. The maximum damage is raised exactly once. A level list shorter than the player's array, with no match in it, is the one case that reads out of range.

Where the code differs from its usual description, the model follows the code:

- A wall with **both** ledge rays clear is classified as a standard ledge, not a wall with the bottom ray hit (`Assets/Scripts/Player/PlayerMovement.cs:542-543`).
- A dash press does not start the dash cooldown; only dash expiry does.
- A repeated `Invoke` queues another call rather than replacing the pending one.
- Pressing up while morphed in the air only clears the crouch flag, so the player stays in the ball.

## Model

| member | source | states |
|---|---|---|
| Engine.Abs | Assets/Scripts/Player/PlayerMovement.cs:227 | the magnitude used by the 0.1 dead-zone tests is non-negative and is the value or its negation |
| Engine.Clamp | Assets/Scripts/Player/PlayerMovement.cs:622 | `Mathf.Clamp`: the result lies in [min, max] when min ≤ max, a value already in range is kept, a value below min becomes min and a value above max becomes max |
| Engine.MaxInt | Assets/Scripts/Enemies/Base/EnemyBase.cs:81 | `Mathf.Max` on integers: at least both arguments and equal to one of them |
| PlayerMovementSpec.Started | Assets/Scripts/Player/PlayerMovement.cs:128-138 | after `Start` the controller is consistent, faces right, can detect ledges, is neither dashing nor hanging, has the full midair-jump allowance and dash time, and its body freezes rotation only |
| PlayerMovementSpec.HasToFlip | Assets/Scripts/Player/PlayerMovement.cs:456-460 | never flips while hanging; when not dashing, flips exactly when the input points away from the facing; flips whenever a dash runs against the facing |
| PlayerMovementSpec.CanMorph | Assets/Scripts/Player/PlayerMovement.cs:490-495 | morphing is allowed only when not already a ball, not dashing and not hanging; on the ground it also needs a crouch and a neutral stick, and in the air the midair morph window |
| PlayerMovementSpec.Crouch | Assets/Scripts/Player/PlayerMovement.cs:409-413 | leaves the player crouched and not morphed, changes nothing else, and keeps the invariant |
| PlayerMovementSpec.Uncrouch | Assets/Scripts/Player/PlayerMovement.cs:415-418 | clears only the crouch flag and keeps the invariant |
| PlayerMovementSpec.Morph | Assets/Scripts/Player/PlayerMovement.cs:420-428 | without the morph ball nothing changes; with it the player is a ball, not crouched, with the midair morph window closed; the other modes, the upgrades, ledge, clocks, counters and body are untouched |
| PlayerMovementSpec.Schedule | Assets/Scripts/Player/PlayerMovement.cs:214 | an `Invoke` appends exactly one call (callback, delay) to the record of calls and changes nothing else |
| PlayerMovementSpec.FlipStep | Assets/Scripts/Player/PlayerMovement.cs:187-190 | the facing turns exactly when `HasToFlip` holds, and nothing else changes |
| PlayerMovementSpec.ExpireDash | Assets/Scripts/Player/PlayerMovement.cs:192-199 | an expired dash ends with both dash flags clear, the dash time back at its start value, the cooldown started and rotation-only constraints; otherwise nothing changes |
| PlayerMovementSpec.RefillMidairJumps | Assets/Scripts/Player/PlayerMovement.cs:201-204 | when a ground or wall jump is possible the midair-jump count is refilled and only that count can change; otherwise the state is unchanged |
| PlayerMovementSpec.ArmWallJump | Assets/Scripts/Player/PlayerMovement.cs:206-216 | while hanging nothing changes; a possible wall jump arms the flag; an armed jump that is no longer possible schedules exactly one `StopWallJump` after the wall-jump window and nothing else; an unarmed, impossible one changes nothing |
| PlayerMovementSpec.StartDash | Assets/Scripts/Player/PlayerMovement.cs:218-241 | no press, or a cooldown not yet below zero, changes nothing; a press after the cooldown leaves the crouch and, with an input beyond the dead zone, raises that direction's flag with position-Y and rotation frozen; a neutral stick raises no flag; one press never raises both flags; only the crouch can be cleared |
| PlayerMovementSpec.TickDash | Assets/Scripts/Player/PlayerMovement.cs:243-252 | a running dash sets the dash velocity in its direction (right first) and runs the dash time down by dt; without a dash nothing changes |
| PlayerMovementSpec.DownAction | Assets/Scripts/Player/PlayerMovement.cs:254-270 | acts only on the first frame of a down hold. On that frame it crouches exactly as `Crouch` when crouching is allowed with a neutral stick; otherwise it curls up exactly as `Morph` when morphing is allowed; otherwise, in the air, it opens the midair morph window and schedules `ResetMidAirMorphWindow`, the only call it can make. The ball is entered only with the upgrade |
| PlayerMovementSpec.UpAction | Assets/Scripts/Player/PlayerMovement.cs:271-289 | acts only on the first frame of an up hold. On that frame a crouched player stands up (`Uncrouch`); a ball becomes a crouch on the ground (`Crouch`) and only has its crouch flag cleared in the air. Only the posture changes |
| PlayerMovementSpec.VerticalInput | Assets/Scripts/Player/PlayerMovement.cs:254-294 | a neutral stick resets both frame counters and changes nothing else; down and up each count their hold. The first down frame crouches when allowed with a neutral stick, else morphs when allowed; the first up frame (stick neutral horizontally) stands a crouch up and turns a ball into a crouch on the ground. Posture changes only on a first frame, and the ball is entered only on the first down frame with the upgrade |
| PlayerMovementSpec.Move | Assets/Scripts/Player/PlayerMovement.cs:185-402 | the whole tick in the script's order; its contract is stated by `MoveKeepsConsistent`, `MoveKeepsFacingWhileHanging`, `MoveDashExclusive`, `MoveLedgeJump`, `MoveSpendsMidairJump` and the other `Move…` lemmas |
| PlayerMovementSpec.DropLedge | Assets/Scripts/Player/PlayerMovement.cs:302-307 | letting go clears both hang flags and both classifications, pauses ledge detection and schedules `ReCheckLedges` |
| PlayerMovementSpec.LedgeJump | Assets/Scripts/Player/PlayerMovement.cs:298-337 | counts the jump frame in every branch; away from the wall: drop the ledge and jump with the current force; toward it: stop, mark the climb and schedule its end with the ledge flags intact; neutral: drop the ledge with the jump counter at zero |
| PlayerMovementSpec.HeldJump | Assets/Scripts/Player/PlayerMovement.cs:340-383 | a first-frame ground or wall jump rises with the jump force and full jump time and leaves the crouch; otherwise a first-frame press with the upgrade and a jump left spends exactly one midair jump and rises the same way; the count changes only then; any other frame continues as `KeepJumping` |
| PlayerMovementSpec.KeepJumping | Assets/Scripts/Player/PlayerMovement.cs:371-383 | a later frame of a held jump keeps the velocity at (0, jump force) and runs the jump time down by dt while it is positive, ends the jump once it is not, and does nothing when no jump is under way; nothing else changes |
| PlayerMovementSpec.Jump | Assets/Scripts/Player/PlayerMovement.cs:296-391 | a released button or a running dash ends the jump and resets the jump-frame counter; a held one counts the frame and performs the first-frame ground/wall jump, the midair jump (exactly one spent) or the continuation (velocity kept and jump time down by dt while it lasts, the jump ended after) |
| PlayerMovementSpec.Run | Assets/Scripts/Player/PlayerMovement.cs:393-401 | while dashing or hanging nothing changes; otherwise the horizontal velocity is speed × input with the vertical kept, and a non-neutral input ends a crouch |
| PlayerMovementSpec.CheckSurroundings | Assets/Scripts/Player/PlayerMovement.cs:507-549 | with detection paused, hanging, crouched or morphed, only the ray flags clear; otherwise the ray flags are the ray hits, wall + top hit + bottom clear gives a morph ledge and wall + both clear a standard ledge; a new classification needs those hits and clears the other |
| PlayerMovementSpec.CheckLedgeClimb | Assets/Scripts/Player/PlayerMovement.cs:551-586 | with detection on and neither crouched nor morphed: a detected morph ledge raises the morph hang flag, a detected standard ledge (no morph ledge or morph hang) raises the standard one, and the two anchors become `LedgeAnchors` of the ledge point; a hang flag is raised only from its classification and clears the other; while hanging the player is pinned to the hang anchor; otherwise nothing changes |
| PlayerMovementSpec.LedgeAnchors | Assets/Scripts/Player/PlayerMovement.cs:567-580 | the climb anchor is the hang anchor moved by the second offsets minus the first: up by Y2 − Y1 and X1 + X2 further in the facing direction |
| PlayerMovementSpec.LedgeAnchorsOnGrid | Assets/Scripts/Player/PlayerMovement.cs:567-580 | the hang anchor sits at the first offsets from a whole-number corner, the floor of the ledge ray's start (moved by the detection range when facing right) |
| PlayerMovementSpec.FrameUpdate | Assets/Scripts/Player/PlayerMovement.cs:140-167 | a frame: detection, hang, then clocks; its contract is stated by `FrameUpdateKeepsConsistent` |
| PlayerMovementSpec.RunDownClocks | Assets/Scripts/Player/PlayerMovement.cs:148-165 | the cooldown and both buff timers run down by dt, and a timer below zero selects the normal jump force or run speed, else the boosted one |
| PlayerMovementSpec.TickClocks | Assets/Scripts/Player/PlayerMovement.cs:144-167 | the clocks run down and the somersault flag holds exactly when airborne at or above the somersault speed |
| PlayerMovementSpec.FinishClimb | Assets/Scripts/Player/PlayerMovement.cs:435-454 | a morph-ledge climb without the morph ball does nothing; otherwise the hang ends at the top anchor, stopped and frozen, with the controls frozen, both classifications cleared and `RegainControl` scheduled, in the ball after a morph-ledge climb; modes other than the morph window and the upgrades are untouched |
| PlayerMovementSpec.Fire | Assets/Scripts/Player/PlayerMovement.cs:588-603 | all callbacks but `FinishLedgeClimb` touch only modes, ledge, constraints and control freeze, never counters, clocks, calls, velocity, position or upgrades |
| PlayerMovementSpec.ContactStarted | Assets/Scripts/Player/PlayerMovement.cs:85-108 | landing grounds the player, re-enables ledge detection, empties the midair-jump count and ends the jump and somersault, and changes nothing else; touching a wall ends any dash, marks that wall and sets rotation-only constraints, leaving ledge, counters, clocks, posture and calls alone |
| PlayerMovementSpec.ContactStopped | Assets/Scripts/Player/PlayerMovement.cs:93-109 | only the flag of the sensor that lost contact (grounded, left wall, right wall) clears, the others keep their value, and the invariant is kept |
| PlayerMovementSpec.ExtendBuff | Assets/Scripts/Player/PlayerMovement.cs:615-623 | a spent timer counts as zero, the time is added, and the total is clamped: 0 below zero, the cap above it, and the sum itself in between |
| PlayerMovementSpec.IncreaseMoveTimer | Assets/Scripts/Player/PlayerMovement.cs:615-623 | the speed-buff timer becomes the old timer (0 when spent) plus the time, clamped to [0, maxSpeedBuffTime], with each case stated; nothing else changes |
| PlayerMovementSpec.IncreaseJumpTimer | Assets/Scripts/Player/PlayerMovement.cs:605-613 | as written: the jump-buff timer becomes the move-buff timer plus the time, clamped to [0, maxJumpBuffTime], with each case stated; nothing else changes |
| PlayerMovementSpec.IntendedIncreaseJumpTimer | Assets/Scripts/Player/PlayerMovement.cs:605-613 | the jump buff with the move buff's rule: within the cap, the time is added to the jump timer itself |
| PlayerMovementLemmas.PreludeFrame | Assets/Scripts/Player/PlayerMovement.cs:187-216 | flip, expiry, refill and arming keep the invariant and leave the ledge, posture and frame counters alone |
| PlayerMovementLemmas.PreludeKeepsFacingWhileHanging | Assets/Scripts/Player/PlayerMovement.cs:187-190 | the first four steps keep the facing while hanging |
| PlayerMovementLemmas.RefillAndArmKeepHeading | Assets/Scripts/Player/PlayerMovement.cs:201-216 | refilling and arming keep facing, dash flags and clocks |
| PlayerMovementLemmas.PreludeDashExclusive | Assets/Scripts/Player/PlayerMovement.cs:192-216 | the first four steps never raise both dash flags |
| PlayerMovementLemmas.PreludeEndsExpiredDash | Assets/Scripts/Player/PlayerMovement.cs:192-199 | after the first four steps no dash runs if none ran or the running one had expired |
| PlayerMovementLemmas.PreludeKeepsRunningDash | Assets/Scripts/Player/PlayerMovement.cs:192-199 | a dash that has not expired, and the cooldown, pass the first four steps untouched |
| PlayerMovementLemmas.DashPhaseFrame | Assets/Scripts/Player/PlayerMovement.cs:218-252 | the dash steps keep the invariant, the ledge record and the counters, and can only clear the crouch |
| PlayerMovementLemmas.DashPhaseDash | Assets/Scripts/Player/PlayerMovement.cs:218-252 | without a running dash a press raises at most one dash flag; during a running dash a press the other way raises the second |
| PlayerMovementLemmas.BeforeJumpFrame | Assets/Scripts/Player/PlayerMovement.cs:187-294 | the state reaching the jump handling keeps the invariant, the ledge record, the jump-frame counter and the upgrades, and the facing while hanging |
| PlayerMovementLemmas.MoveKeepsConsistent | Assets/Scripts/Player/PlayerMovement.cs:185-402 | a whole `Move` keeps the invariant |
| PlayerMovementLemmas.MoveKeepsFacingWhileHanging | Assets/Scripts/Player/PlayerMovement.cs:185-402 | the facing never changes in a tick that starts hanging from a ledge |
| PlayerMovementLemmas.JumpAndRunFrame | Assets/Scripts/Player/PlayerMovement.cs:296-401 | the jump handling and the run keep the invariant, the heading and the down/up counters |
| PlayerMovementLemmas.JumpAndRunPosture | Assets/Scripts/Player/PlayerMovement.cs:296-401 | the jump handling and the run never enter the ball, only leave a crouch, and spend a midair jump only from a positive count |
| PlayerMovementLemmas.MoveKeepsDashFlags | Assets/Scripts/Player/PlayerMovement.cs:254-401 | the dash flags at the end of a tick are those the dash steps left |
| PlayerMovementLemmas.MoveDashExclusive | Assets/Scripts/Player/PlayerMovement.cs:218-241 | a tick never raises both dash flags when no press overlaps a running dash |
| PlayerMovementLemmas.MoveCanRaiseBothDashFlags | Assets/Scripts/Player/PlayerMovement.cs:218-241 | a left press during an unexpired right dash with the cooldown spent ends the tick with both dash flags raised |
| PlayerMovementLemmas.LedgeJumpTaken | Assets/Scripts/Player/PlayerMovement.cs:296-298 | a first-frame jump while hanging, with no dash running and none starting (no press, or a press before the cooldown is spent), reaches the ledge-jump branch with its ledge and facing |
| PlayerMovementLemmas.MoveLedgeJump | Assets/Scripts/Player/PlayerMovement.cs:298-337 | such a tick ends after counting the jump frame; away or neutral drops the ledge, clears all four ledge flags and pauses detection; toward the wall starts the climb with the ledge flags intact |
| PlayerMovementLemmas.MoveKeepsMidairJumpsNonNegative | Assets/Scripts/Player/PlayerMovement.cs:357-368 | with a non-negative allowance the midair-jump count never goes negative through a tick |
| PlayerMovementLemmas.MoveSpendsMidairJump | Assets/Scripts/Player/PlayerMovement.cs:357-368 | a tick spends a midair jump only on a first jump frame out of reach of ground and wall, with the upgrade and a jump left, and then exactly one |
| PlayerMovementLemmas.MoveJumpReleased | Assets/Scripts/Player/PlayerMovement.cs:387-391 | with the button up or a dash running, the tick ends with no jump and the jump-frame counter at zero |
| PlayerMovementLemmas.MoveNeutralStickResetsCounters | Assets/Scripts/Player/PlayerMovement.cs:290-294 | a neutral vertical input, or up with a horizontal push, ends the tick with both down and up counters at zero |
| PlayerMovementLemmas.MoveMorphsOnFirstDownFrame | Assets/Scripts/Player/PlayerMovement.cs:256-269 | a tick enters the ball only on the first frame of a down hold and only with the morph ball unlocked |
| PlayerMovementLemmas.MoveCrouchesOnFirstFrame | Assets/Scripts/Player/PlayerMovement.cs:254-289 | a tick crouches the player only on the first frame of a down or up hold |
| PlayerMovementLemmas.FrameUpdateKeepsConsistent | Assets/Scripts/Player/PlayerMovement.cs:140-167 | a frame of `Update` keeps the invariant |
| PlayerMovementLemmas.FireKeepsConsistent | Assets/Scripts/Player/PlayerMovement.cs:588-603 | every scheduled callback keeps the invariant |
| PlayerMovementLemmas.ApplyKeepsConsistent | Assets/Scripts/Player/PlayerMovement.cs:83-110 | every event (tick, frame, contact edge, callback, buff) keeps the invariant |
| PlayerMovementLemmas.ReplayKeepsConsistent | Assets/Scripts/Player/PlayerMovement.cs:536-548 | any run of events keeps the invariant |
| PlayerMovementLemmas.ReachableIsConsistent | Assets/Scripts/Player/PlayerMovement.cs:128-138 | every state reached from `Start`: classifications exclusive, hang flags exclusive, crouch and morph exclusive, frame counters non-negative |
| PlayerMovementLemmas.JumpBuffIgnoresJumpTimer | Assets/Scripts/Player/PlayerMovement.cs:612 | as written, the new jump timer does not depend on the old jump timer at all |
| PlayerMovementLemmas.JumpBuffCounterexample | Assets/Scripts/Player/PlayerMovement.cs:605-613 | 5 s of jump buff left, no speed buff, 1 s more under a 10 s cap: 1 s as written, 6 s as intended |
| PlayerMovementLemmas.IntendedJumpBuffKeepsRemainder | Assets/Scripts/Player/PlayerMovement.cs:605-613 | with the corrected rule, time added to a running jump buff gives the old timer plus that time, capped, never less than what was left |
| PlayerMovement.PlayerMovement.constructor | Assets/Scripts/Player/PlayerMovement.cs:128-138 | the object starts in the `Start` state and satisfies the invariant |
| PlayerMovement.PlayerMovement.Crouch | Assets/Scripts/Player/PlayerMovement.cs:409-413 | the fields become `Crouch` of the old state |
| PlayerMovement.PlayerMovement.Uncrouch | Assets/Scripts/Player/PlayerMovement.cs:415-418 | the fields become `Uncrouch` of the old state |
| PlayerMovement.PlayerMovement.Morph | Assets/Scripts/Player/PlayerMovement.cs:420-428 | the fields become `Morph` of the old state |
| PlayerMovement.PlayerMovement.KillMomentum | Assets/Scripts/Player/PlayerMovement.cs:404-407 | the velocity becomes zero, nothing else changes, and the invariant is kept |
| PlayerMovement.PlayerMovement.Move | Assets/Scripts/Player/PlayerMovement.cs:185-402 | a tick, with its early return, leaves the state `Move` gives, so the invariant is kept |
| PlayerMovement.PlayerMovement.Flip | Assets/Scripts/Player/PlayerMovement.cs:467-473 | the facing turns exactly when `HasToFlip` holds |
| PlayerMovement.PlayerMovement.ExpireDash | Assets/Scripts/Player/PlayerMovement.cs:192-199 | the fields become `ExpireDash` of the old state |
| PlayerMovement.PlayerMovement.RefillMidairJumps | Assets/Scripts/Player/PlayerMovement.cs:201-204 | the fields become `RefillMidairJumps` of the old state |
| PlayerMovement.PlayerMovement.ArmWallJump | Assets/Scripts/Player/PlayerMovement.cs:206-216 | the fields become `ArmWallJump` of the old state |
| PlayerMovement.PlayerMovement.PressDash | Assets/Scripts/Player/PlayerMovement.cs:218-241 | the fields become `StartDash` of the old state |
| PlayerMovement.PlayerMovement.TickDash | Assets/Scripts/Player/PlayerMovement.cs:243-252 | the fields become `TickDash` of the old state |
| PlayerMovement.PlayerMovement.VerticalInput | Assets/Scripts/Player/PlayerMovement.cs:254-294 | the fields become `VerticalInput` of the old state, so the first down or up frame crouches, morphs or stands up as stated there |
| PlayerMovement.PlayerMovement.LedgeJump | Assets/Scripts/Player/PlayerMovement.cs:298-337 | the fields become `LedgeJump` of the old state, and the invariant is kept |
| PlayerMovement.PlayerMovement.DropLedge | Assets/Scripts/Player/PlayerMovement.cs:302-307 | the fields become `DropLedge` of the old state |
| PlayerMovement.PlayerMovement.Jump | Assets/Scripts/Player/PlayerMovement.cs:340-391 | the fields become `Jump` of the old state: ground, wall or midair jump on the first frame, the continuation on later ones |
| PlayerMovement.PlayerMovement.Run | Assets/Scripts/Player/PlayerMovement.cs:393-401 | the fields become `Run` of the old state |
| PlayerMovement.PlayerMovement.Update | Assets/Scripts/Player/PlayerMovement.cs:140-182 | a frame leaves the state `FrameUpdate` gives, so the invariant is kept |
| PlayerMovement.PlayerMovement.CheckSurroundings | Assets/Scripts/Player/PlayerMovement.cs:507-549 | the fields become `CheckSurroundings` of the old state |
| PlayerMovement.PlayerMovement.CheckLedgeClimb | Assets/Scripts/Player/PlayerMovement.cs:551-586 | the fields become `CheckLedgeClimb` of the old state: a classification starts its hang, with the anchors from `LedgeAnchors` |
| PlayerMovement.PlayerMovement.StopWallJump | Assets/Scripts/Player/PlayerMovement.cs:588-591 | only the wall-jump arm is cleared |
| PlayerMovement.PlayerMovement.ReCheckLedges | Assets/Scripts/Player/PlayerMovement.cs:593-596 | only ledge detection is re-enabled |
| PlayerMovement.PlayerMovement.FinishLedgeClimb | Assets/Scripts/Player/PlayerMovement.cs:435-454 | the fields become `FinishClimb` of the old state |
| PlayerMovement.PlayerMovement.RegainControl | Assets/Scripts/Player/PlayerMovement.cs:598-603 | the climb ends, the constraints go back to rotation only and the controls unfreeze |
| PlayerMovement.PlayerMovement.ResetMidAirMorphWindow | Assets/Scripts/Player/PlayerMovement.cs:430-433 | only the midair morph window closes |
| PlayerMovement.PlayerMovement.ContactStarted | Assets/Scripts/Player/PlayerMovement.cs:85-108 | the fields become `ContactStarted` of the old state |
| PlayerMovement.PlayerMovement.ContactStopped | Assets/Scripts/Player/PlayerMovement.cs:93-109 | the sensor's flag (grounded, left wall, right wall) clears and nothing else changes |
| PlayerMovement.PlayerMovement.IncreaseJumpTimer | Assets/Scripts/Player/PlayerMovement.cs:605-613 | as written (see Findings): the fields become `IncreaseJumpTimer` of the old state, so the jump timer becomes the move timer plus the time, clamped |
| PlayerMovement.PlayerMovement.IncreaseMoveTimer | Assets/Scripts/Player/PlayerMovement.cs:615-623 | the fields become `IncreaseMoveTimer` of the old state, so the move timer becomes its non-negative part plus the time, clamped |
| GunnerPatrol.PatrolAnchors | Assets/Scripts/Enemies/Gunner/GunnerPatrol.cs:21-22 | the end points are at the anchor's height, centred on it, 2 × range apart, with left ≤ anchor ≤ right for a non-negative range |
| GunnerPatrol.Heading | Assets/Scripts/Enemies/Gunner/GunnerPatrol.cs:33-40 | the move direction is a horizontal unit vector pointing right exactly when the Gunner faces right |
| GunnerPatrol.TimeToChange | Assets/Scripts/Enemies/Gunner/GunnerPatrol.cs:53-58 | true exactly when the position is within 0.05 of the end point in the direction of travel |
| GunnerPatrol.GoesIdle | Assets/Scripts/Enemies/Gunner/GunnerPatrol.cs:47 | the idle condition: a wall, a missing floor or `TimeToChange`; `PatrolTransition` states what follows from it |
| GunnerPatrol.PatrolTransition | Assets/Scripts/Enemies/Gunner/GunnerPatrol.cs:42-50 | a wall, a missing floor or the end point gives a fresh Idle even when the player is seen; otherwise a seen player gives a fresh Chase; otherwise the state stays |
| EnemyBaseSpec.Start | Assets/Scripts/Enemies/Base/EnemyBase.cs:52-60 | the position, rotation, mass and constraints at that moment are saved, and nothing else changes |
| EnemyBaseSpec.OnEnable | Assets/Scripts/Enemies/Base/EnemyBase.cs:62-71 | full health (alive exactly when the maximum is positive), back to the start pose once started, and nothing else changes (state, body, collider, activity, calls) |
| EnemyBaseSpec.Die | Assets/Scripts/Enemies/Base/EnemyBase.cs:85-101 | the body turns static, the collider off, the death is recorded and the disable scheduled after 3 s; health, state, pose, activity and the rest of the body are untouched |
| EnemyBaseSpec.Disable | Assets/Scripts/Enemies/Base/EnemyBase.cs:103-111 | the object is deactivated, the body dynamic and the collider on again; health, state, calls, pose and the rest of the body untouched |
| EnemyBaseSpec.HealthAfterHit | Assets/Scripts/Enemies/Base/EnemyBase.cs:81 | the new health is never negative, is zero exactly when the damage reaches the health, and otherwise is the health minus the damage |
| EnemyBaseSpec.BaseHit | Assets/Scripts/Enemies/Base/EnemyBase.cs:78-83 | a dead enemy is unchanged; a live one loses health (floored at 0), and dies exactly when that reaches zero: the death is recorded, the body turns static, the collider goes off and the disable is scheduled after 3 s, and nothing else changes; a survivor changes only its health |
| EnemyBaseSpec.Hit | Assets/Scripts/Enemies/Base/EnemyBase.cs:149-157 | a dead enemy is unchanged; a live one loses health and its state is told of the hit once, before the death exactly when health reaches zero; a survivor changes only health and recorded calls; a death also makes the body static, turns the collider off and schedules the disable, and nothing else |
| EnemyBaseSpec.OneDeathPerLife | Assets/Scripts/Enemies/Base/EnemyBase.cs:149-157 | over any run of hits, one death is recorded when the enemy goes from alive to dead, and none otherwise |
| EnemyBaseSpec.DeadStaysDead | Assets/Scripts/Enemies/Base/EnemyBase.cs:151 | any run of hits on a dead enemy changes nothing |
| EnemyBaseSpec.SetState | Assets/Scripts/Enemies/Base/EnemyBase.cs:138-142 | the new state is installed, the old one recorded as discarded, and nothing else changes |
| EnemyBaseSpec.PatrolStart | Assets/Scripts/Enemies/Gunner/GunnerPatrol.cs:18-28 | the patrol is marked started with its end points around the anchor, the Gunner flips exactly once, and nothing but the state, the Gunner's facing and the calls changes |
| EnemyBaseSpec.StateStart | Assets/Scripts/Enemies/Base/EnemyBase.cs:163-166 | the installed state is started and keeps its kind, `StateStarted` is the next call recorded; a patrol starts as `PatrolStart`, a chase or idle state only marks itself started; health, body, pose and activity are untouched |
| EnemyBaseSpec.PatrolTick | Assets/Scripts/Enemies/Gunner/GunnerPatrol.cs:30-51 | a patrol tick first moves the Gunner the way it faces, then installs `PatrolTransition`'s state, and changes nothing but the state and the calls |
| EnemyBaseSpec.PatrolFixedUpdate | Assets/Scripts/Enemies/Gunner/GunnerPatrol.cs:30-51 | the patrol tick; its contract is stated by `PatrolTick` |
| EnemyBaseSpec.StateFixedUpdate | Assets/Scripts/Enemies/Base/EnemyBase.cs:181 | the installed state's fixed tick, dispatched on its kind; for a patrol its contract is `PatrolTick` |
| EnemyBaseSpec.Update | Assets/Scripts/Enemies/Base/EnemyBase.cs:159-170 | a dead enemy is unchanged; a live one ends started and its state updated, with `StateStart` first when it had not started; the state keeps its kind and only the state, the Gunner and the calls can change |
| EnemyBaseSpec.FixedUpdate | Assets/Scripts/Enemies/Base/EnemyBase.cs:172-183 | the physics tick; its contract is stated by `FixedUpdateStartedPatrol` and `FixedUpdateFreshPatrol` |
| EnemyBaseSpec.FixedUpdateStartedPatrol | Assets/Scripts/Enemies/Base/EnemyBase.cs:172-183 | a dead enemy's tick changes nothing; a started patrol moves and transitions as `PatrolTick` says, changing nothing but the state and the calls |
| EnemyBaseSpec.FixedUpdateFreshPatrol | Assets/Scripts/Enemies/Base/EnemyBase.cs:172-183 | the first tick of a fresh patrol starts it first (flip, end points), then moves and transitions with the new facing and end points; nothing but the state, the facing and the calls changes |
| EnemyBaseSpec.CollisionEnter | Assets/Scripts/Enemies/Base/EnemyBase.cs:113-122 | touching the player damages it by the contact damage and stops, weighs down and freezes the body, changing nothing but the body and the calls; other contacts change nothing |
| EnemyBaseSpec.CollisionExit | Assets/Scripts/Enemies/Base/EnemyBase.cs:124-131 | the player leaving restores the constraints and mass saved by `Start` and changes nothing else; other contacts change nothing |
| EnemyBaseSpec.ContactLockIsUndone | Assets/Scripts/Enemies/Base/EnemyBase.cs:113-131 | after `Start`, a contact and a separation give back the original body, stopped |
| EnemyBase.EnemyBase.constructor | Assets/Scripts/Enemies/Base/EnemyBase.cs:26-41 | the object holds the loaded field values |
| EnemyBase.EnemyBase.Start | Assets/Scripts/Enemies/Base/EnemyBase.cs:52-60 | the fields become `Start` of the old state |
| EnemyBase.EnemyBase.OnEnable | Assets/Scripts/Enemies/Base/EnemyBase.cs:62-71 | the fields become `OnEnable` of the old state |
| EnemyBase.EnemyBase.BaseHit | Assets/Scripts/Enemies/Base/EnemyBase.cs:78-83 | the fields become `BaseHit` of the old state, so a fatal hit also runs `Die` |
| EnemyBase.EnemyBase.Hit | Assets/Scripts/Enemies/Base/EnemyBase.cs:149-157 | the fields become `Hit` of the old state |
| EnemyBase.EnemyBase.Die | Assets/Scripts/Enemies/Base/EnemyBase.cs:85-101 | the fields become `Die` of the old state |
| EnemyBase.EnemyBase.DisableUponDeath | Assets/Scripts/Enemies/Base/EnemyBase.cs:103-111 | the fields become `Disable` of the old state |
| EnemyBase.EnemyBase.SetState | Assets/Scripts/Enemies/Base/EnemyBase.cs:138-142 | the fields become `SetState` of the old state |
| EnemyBase.EnemyBase.Update | Assets/Scripts/Enemies/Base/EnemyBase.cs:159-170 | the fields become `Update` of the old state, which starts the state lazily and changes nothing but the state, the Gunner and the calls |
| EnemyBase.EnemyBase.FixedUpdate | Assets/Scripts/Enemies/Base/EnemyBase.cs:172-183 | the fields become `FixedUpdate` of the old state, which the two fixed-update lemmas describe |
| EnemyBase.EnemyBase.StateStart | Assets/Scripts/Enemies/Base/EnemyBase.cs:165 | the installed state's start, dispatched on its kind; the fields become `StateStart` of the old state |
| EnemyBase.EnemyBase.StateFixedUpdate | Assets/Scripts/Enemies/Base/EnemyBase.cs:181 | the installed state's fixed tick, dispatched on its kind |
| EnemyBase.EnemyBase.PatrolStateStart | Assets/Scripts/Enemies/Gunner/GunnerPatrol.cs:18-28 | the fields become `PatrolStart` of the old state: started, end points set, one flip, nothing else |
| EnemyBase.EnemyBase.PatrolStateFixedUpdate | Assets/Scripts/Enemies/Gunner/GunnerPatrol.cs:30-51 | the move and the two `SetState` calls in order leave the state `PatrolTick` describes |
| EnemyBase.EnemyBase.OnCollisionEnter | Assets/Scripts/Enemies/Base/EnemyBase.cs:113-122 | the fields become `CollisionEnter` of the old state |
| EnemyBase.EnemyBase.OnCollisionExit | Assets/Scripts/Enemies/Base/EnemyBase.cs:124-131 | the fields become `CollisionExit` of the old state |
| TimedButtonSpec.Start | Assets/Scripts/Hazard/TimedButton.cs:19-25 | the timer is loaded with the cooldown and the idle sprite shown; pressed flag and target untouched |
| TimedButtonSpec.HitSprite | Assets/Scripts/Hazard/TimedButton.cs:40-45 | pressed, pressed sprite, and exactly one `Open` call on the target |
| TimedButtonSpec.NormalSprite | Assets/Scripts/Hazard/TimedButton.cs:47-52 | released, idle sprite, and exactly one `Close` call on the target |
| TimedButtonSpec.Press | Assets/Scripts/Hazard/TimedButton.cs:54-59 | the timer is reloaded with the cooldown, the button pressed and the target opened |
| TimedButtonSpec.UnPress | Assets/Scripts/Hazard/TimedButton.cs:61-65 | the timer is emptied, the button released and the target closed |
| TimedButtonSpec.Tick | Assets/Scripts/Hazard/TimedButton.cs:27-38 | the timer runs down by dt only while pressed; a spent timer releases the button and closes the target; otherwise nothing else changes |
| TimedButtonSpec.TicksRunDownTimer | Assets/Scripts/Hazard/TimedButton.cs:27-38 | after frames of non-negative length, the button is pressed exactly when it was and the time passed has not used up its timer, which then has run down by that time with no call made on the target and the sprite kept |
| TimedButtonSpec.PressLastsForCooldown | Assets/Scripts/Hazard/TimedButton.cs:54-59 | after a press, the button stays pressed exactly while the frames since add up to less than the cooldown, and meanwhile the last call on the target is the press's `Open` |
| TimedButton.TimedButton.constructor | Assets/Scripts/Hazard/TimedButton.cs:10-12 | the loaded object: not pressed, timer zero, cooldown as configured |
| TimedButton.TimedButton.Start | Assets/Scripts/Hazard/TimedButton.cs:19-25 | the fields become `Start` of the old state |
| TimedButton.TimedButton.Update | Assets/Scripts/Hazard/TimedButton.cs:27-38 | the fields become `Tick` of the old state |
| TimedButton.TimedButton.HitSprite | Assets/Scripts/Hazard/TimedButton.cs:40-45 | the fields become `HitSprite` of the old state |
| TimedButton.TimedButton.NormalSprite | Assets/Scripts/Hazard/TimedButton.cs:47-52 | the fields become `NormalSprite` of the old state |
| TimedButton.TimedButton.Press | Assets/Scripts/Hazard/TimedButton.cs:54-59 | the fields become `Press` of the old state |
| TimedButton.TimedButton.UnPress | Assets/Scripts/Hazard/TimedButton.cs:61-65 | the fields become `UnPress` of the old state |
| DamageUpgrade.FirstMatch | Assets/Scripts/Buffs/DamageUpgrade.cs:12-19 | the search finds the first slot holding the upgrade, reports a miss only when every slot read holds another one, and runs out of range only when the list is shorter than the count with no match before its end |
| DamageUpgrade.LongEnoughListNeverThrows | Assets/Scripts/Buffs/DamageUpgrade.cs:12-14 | a level list at least as long as the player's array is never read out of range |
| DamageUpgrade.DamageUpgrade.SetUpgrade | Assets/Scripts/Buffs/DamageUpgrade.cs:9-22 | only the first matching slot is marked (none when there is no match); the maximum damage is raised exactly once and the pickup destroyed, unless the read runs out of range, which changes nothing |

## Left out

- Floating point: every `float` is a Dafny `real`. Rounding is not modelled. The `0.1f` and `0.1` dead-zone constants are both 0.1, and the patrol tolerance `0.05f` is 0.05.
- Presentation: animator parameters, `AudioManager.Play`, `DissolveEffect`, sprite renderers (a sprite is a two-valued tag) and the tooltip UI.
- Engine physics: `Physics2D.Raycast` results are the `RayHits` input and contact-sensor edges are events. Velocity, position, mass and constraints are only stored values, with no rigid-body integration. The `transform.localScale` mirror in `Flip` and the collider-trigger enabling in `OnEnable`/`OnDisable` of the player (`PlayerMovement.cs:112-124`) are not modelled.
- The player-entity copy of the facing (`PlayerMovement.cs:145`) is not modelled. The controller's own facing is.
- `Time.deltaTime` is the `dt` parameter of each tick and frame.
- `Invoke` scheduling: a call is recorded with its delay. The engine running it later is the environment calling the callback method, and no timing is modelled.
- `EnemyBase.Call`/`SendMessage` (`EnemyBase.cs:73-76`) are foreign engine dispatch.
- The pickup spawn in `Die` (`EnemyBase.cs:87-94`) uses `Random.Range` and `Instantiate`. It is an engine call with no effect on the enemy's own state.
- `OnDisable` of `EnemyBase<T>` (`EnemyBase.cs:185-188`) destroys the installed state but leaves the reference in place. What a later tick then does depends on Unity object lifetimes, which are not modelled. `SetStunned` is empty.
- `Gunner`, `GunnerState`, `EnemyState`, `GunnerChase` and `GunnerIdle` are not part of this model:
  - the state object is the `GunnerState` datatype, whose base `StateStart` is taken to set `initialized`;
  - the chase and idle states' hooks are taken to do only that;
  - `OnGetHit`, `StateUpdate`, the base `StateFixedUpdate`, `MoveInDirection`, the state's destruction and player damage are recorded as events;
  - `Gunner.Flip` is taken to toggle `facingRight`;
  - the sensing calls and the position are the `Senses` input.
- `PlayerEntity`, `LevelManager` and `Combat` are not part of this model. Their fields are inputs or fields of the modelled objects, and `IncreaseMaxDamage` is a counter.
- `Assets/Scripts/Hazard/Acid.cs` is not modelled: a trigger that toggles one player flag.
- `EnemyBaseSpec.HealthAfterHit` does not model 32-bit overflow of `currentHealth - damage`. That needs health and damage near the `int` range, which game values do not reach.
- PlayerMovementSpec.Started: takes the public inspector fields `currentJumpTimer`, `currentMoveTimer` and `isClimbing` as 0. `Start` (`PlayerMovement.cs:128-138`) does not reset them, so values set in the scene are not modelled.
- `PlayerMovementSpec.VerticalInput` does not model 32-bit overflow of the frame counters, which would take about 2^31 consecutive frames of one hold.
- `EnemyBase.EnemyBase.StateStart` and `EnemyBase.EnemyBase.StateFixedUpdate` for the chase and idle states record the hook only, because those states' code is not part of this model.

## Findings

| source | as written | input that shows it | evidently intended | confidence | as-written member | corrected member |
|---|---|---|---|---|---|---|
| Assets/Scripts/Player/PlayerMovement.cs:612 | the jump-buff timer is set from `currentMoveTimer + time`, clamped, so any jump buff left is thrown away | jump timer 5, move timer 0, `time` 1, `maxJumpBuffTime` 10: the jump timer drops to 1 | `currentJumpTimer + time`, clamped, as `IncreaseMoveTimer` does for its own timer | high; not executed | PlayerMovementLemmas.JumpBuffCounterexample | PlayerMovementSpec.IntendedIncreaseJumpTimer |

=== FILE: DamageUpgrade.dfy ===
/** Collecting a damage upgrade: the player's record of collected upgrades
    gets the entry of this upgrade marked, the maximum damage is raised once
    and the pickup is destroyed. */
module DamageUpgrade {

  /** The part of the player singleton the upgrade touches: one flag per
      damage upgrade of the level, and how many times the combat component
      has been asked to raise the maximum damage. */
  class PlayerEntity {
    const damageUpgradesCollected: array<bool>
    var maxDamageIncreases: nat

    constructor (upgradeCount: nat)
      ensures damageUpgradesCollected.Length == upgradeCount && fresh(damageUpgradesCollected)
      ensures forall i :: 0 <= i < upgradeCount ==> !damageUpgradesCollected[i]
      ensures maxDamageIncreases == 0
    {
      damageUpgradesCollected := new bool[upgradeCount](_ => false);
      maxDamageIncreases := 0;
    }
  }

  /** Where the search for an upgrade in the level's list ends. */
  datatype Scan =
    | Found(index: nat)  // the first slot holding it
    | NotFound           // every slot looked at holds another upgrade
    | OutOfRange         // the list ran out first: the read throws

  /** The search the collecting loop makes: slots `from` up to `count` of
      the level's list, in order, stopping at the first that holds `me`. */
  function FirstMatch<T(==)>(upgrades: seq<T>, me: T, count: nat, from: nat): (r: Scan)
    requires from <= count
    ensures r.Found? ==>
      from <= r.index < count && r.index < |upgrades| && upgrades[r.index] == me &&
      forall j :: from <= j < r.index ==> upgrades[j] != me
    ensures r.NotFound? ==> count <= |upgrades| || from == count
    ensures r.NotFound? ==> forall j :: from <= j < count && j < |upgrades| ==> upgrades[j] != me
    ensures r.OutOfRange? ==> |upgrades| < count && forall j :: from <= j < |upgrades| ==> upgrades[j] != me
    decreases count - from
  {
    if from == count then NotFound
    else if from >= |upgrades| then OutOfRange
    else if upgrades[from] == me then Found(from)
    else FirstMatch(upgrades, me, count, from + 1)
  }

  /** Every slot of a list at least `count` long is read without a throw. */
  lemma {:induction false} LongEnoughListNeverThrows<T>(upgrades: seq<T>, me: T, count: nat, from: nat)
    requires from <= count <= |upgrades|
    ensures !FirstMatch(upgrades, me, count, from).OutOfRange?
    decreases count - from
  {
    if from < count && upgrades[from] != me {
      LongEnoughListNeverThrows(upgrades, me, count, from + 1);
    }
  }

  class DamageUpgrade {
    /** Whether the pickup's game object has been destroyed. */
    var destroyed: bool

    constructor ()
      ensures !destroyed
    {
      destroyed := false;
    }

    /** Marks the first slot of the level's list holding this upgrade as
        collected (no slot when none holds it), raises the maximum damage
        once and destroys the pickup. When the level's list is shorter than
        the player's array and holds no match, reading past its end throws:
        `outOfRange` is then true and nothing has changed. */
    method SetUpgrade(player: PlayerEntity, levelUpgrades: seq<DamageUpgrade?>) returns (outOfRange: bool)
      modifies this, player, player.damageUpgradesCollected
      ensures var scan := FirstMatch(levelUpgrades, this, player.damageUpgradesCollected.Length, 0);
        (outOfRange <==> scan.OutOfRange?) &&
        (scan.Found? ==> player.damageUpgradesCollected[..] == old(player.damageUpgradesCollected[..])[scan.index := true]) &&
        (!scan.Found? ==> player.damageUpgradesCollected[..] == old(player.damageUpgradesCollected[..]))
      ensures player.maxDamageIncreases == old(player.maxDamageIncreases) + (if outOfRange then 0 else 1)
      ensures destroyed == (old(destroyed) || !outOfRange)
    {
      var collected := player.damageUpgradesCollected;
      var i := 0;
      while i < collected.Length
        invariant 0 <= i <= collected.Length
        invariant FirstMatch(levelUpgrades, this, collected.Length, i) == FirstMatch(levelUpgrades, this, collected.Length, 0)
        invariant collected[..] == old(collected[..])
        invariant player.maxDamageIncreases == old(player.maxDamageIncreases) && destroyed == old(destroyed)
      {
        if i >= |levelUpgrades| {
          return true;
        }
        if levelUpgrades[i] == this {
          collected[i] := true;
          break;
        }
        i := i + 1;
      }
      player.maxDamageIncreases := player.maxDamageIncreases + 1;
      destroyed := true;
      return false;
    }
  }
}

=== FILE: EnemyBase.dfy ===
/** The enemy as the object the game runs: a Gunner's `EnemyBase<Gunner>`
    part, with the installed state object and the Gunner fields its patrol
    uses. Every method updates the fields as the enemy does and is proved to
    leave the state the matching function of `EnemyBaseSpec` describes. */
module EnemyBase {
  import opened Engine
  import opened GunnerPatrol
  import S = EnemyBaseSpec

  class EnemyBase {
    var currentHealth: int
    var maxHealth: int
    var contactDamage: int
    /** Set by the concrete enemy once it has started; read by `OnEnable`. */
    var started: bool
    /** Values captured by `Start`. */
    var saved: S.Saved
    var pose: S.Pose
    var body: S.Rigidbody
    var colliderEnabled: bool
    /** Whether the game object is active. */
    var active: bool
    /** The installed state object. */
    var state: GunnerState
    var gunner: S.Patroller
    /** Calls made on code outside this model, oldest first. */
    var events: seq<S.Event>
    /** Every `Invoke` made so far, oldest first. */
    var invokes: seq<Invocation<S.Callback>>

    function State(): S.Enemy
      reads this
    {
      S.Enemy(currentHealth, maxHealth, contactDamage, started, saved, pose, body,
              colliderEnabled, active, state, gunner, events, invokes)
    }

    /** The object as the engine loads it, before `OnEnable` and `Start`. */
    constructor (loaded: S.Enemy)
      ensures State() == loaded
    {
      currentHealth := loaded.currentHealth;
      maxHealth := loaded.maxHealth;
      contactDamage := loaded.contactDamage;
      started := loaded.started;
      saved := loaded.saved;
      pose := loaded.pose;
      body := loaded.body;
      colliderEnabled := loaded.colliderEnabled;
      active := loaded.active;
      state := loaded.state;
      gunner := loaded.gunner;
      events := loaded.events;
      invokes := loaded.invokes;
    }

    predicate IsAlive()
      reads this
    {
      S.IsAlive(State())
    }

    method Invoke(cb: S.Callback, delay: real)
      modifies this
      ensures State() == old(State()).(invokes := old(invokes) + [Invocation(cb, delay)])
    {
      invokes := invokes + [Invocation(cb, delay)];
    }

    // -------------------------------------------------------------------
    // Life cycle

    method Start()
      modifies this
      ensures State() == S.Start(old(State()))
    {
      saved := saved.(startPosition := pose.position, startRotation := pose.rotation);
      saved := saved.(initialMass := body.mass);
      saved := saved.(initialConstraints := body.constraints);
    }

    method OnEnable()
      modifies this
      ensures State() == S.OnEnable(old(State()))
    {
      currentHealth := maxHealth;
      if started {
        pose := S.Pose(saved.startPosition, saved.startRotation);
      }
    }

    /** The non-generic `Hit`. */
    method BaseHit(damage: int)
      modifies this
      ensures State() == S.BaseHit(old(State()), damage)
    {
      if !IsAlive() {
        return;
      }
      currentHealth := MaxInt(currentHealth - damage, 0);
      if !IsAlive() {
        Die();
      }
    }

    /** The generic `Hit`, the one a Gunner uses. */
    method Hit(damage: int)
      modifies this
      ensures State() == S.Hit(old(State()), damage)
    {
      if IsAlive() {
        currentHealth := MaxInt(currentHealth - damage, 0);
        events := events + [S.GotHit];
        if !IsAlive() {
          Die();
        }
      }
    }

    method Die()
      modifies this
      ensures State() == S.Die(old(State()))
    {
      body := body.(isStatic := true);
      colliderEnabled := false;
      events := events + [S.Died];
      Invoke(S.DisableUponDeath, S.DisableDelay);
    }

    /** Run by the engine `DisableDelay` seconds after `Die`. */
    method DisableUponDeath()
      modifies this
      ensures State() == S.Disable(old(State()))
    {
      active := false;
      body := body.(isStatic := false);
      colliderEnabled := true;
    }

    // -------------------------------------------------------------------
    // The installed state

    method SetState(next: GunnerState)
      modifies this
      ensures State() == S.SetState(old(State()), next)
    {
      events := events + [S.StateDestroyed(state)];
      state := next;
    }

    method Update()
      modifies this
      ensures State() == S.Update(old(State()))
    {
      if IsAlive() {
        if !state.initialized {
          StateStart();
        }
        events := events + [S.StateUpdated];
      }
    }

    method FixedUpdate(senses: Senses)
      modifies this
      ensures State() == S.FixedUpdate(old(State()), senses)
    {
      if IsAlive() {
        if !state.initialized {
          StateStart();
        }
        StateFixedUpdate(senses);
      }
    }

    /** `StateStart` of the installed state. */
    method StateStart()
      modifies this
      ensures State() == S.StateStart(old(State()))
    {
      match state
      case Patrol(_, _, _) => PatrolStateStart();
      case Chase(_) =>
        state := Chase(true);
        events := events + [S.StateStarted];
      case Idle(_) =>
        state := Idle(true);
        events := events + [S.StateStarted];
    }

    /** `StateFixedUpdate` of the installed state. */
    method StateFixedUpdate(senses: Senses)
      modifies this
      ensures State() == S.StateFixedUpdate(old(State()), senses)
    {
      if state.Patrol? {
        PatrolStateFixedUpdate(senses);
      } else {
        events := events + [S.StateFixedUpdated];
      }
    }

    /** `GunnerPatrol.StateStart`, acting on its target. */
    method PatrolStateStart()
      requires state.Patrol?
      modifies this
      ensures State() == S.PatrolStart(old(State()))
    {
      state := state.(initialized := true);
      events := events + [S.StateStarted];
      var left := Vec2(gunner.currentPatrolAnchor.x - gunner.horizontalRange, gunner.currentPatrolAnchor.y);
      var right := Vec2(gunner.currentPatrolAnchor.x + gunner.horizontalRange, gunner.currentPatrolAnchor.y);
      state := state.(patrolLeftPoint := left, patrolRightPoint := right);
      gunner := gunner.(facingRight := !gunner.facingRight);
      events := events + [S.Flipped];
    }

    /** `GunnerPatrol.StateFixedUpdate`, acting on its target. */
    method PatrolStateFixedUpdate(senses: Senses)
      requires state.Patrol?
      modifies this
      ensures State() == S.PatrolFixedUpdate(old(State()), senses)
    {
      // The idle test reads only the facing and the end points, which
      // neither the move nor `SetState` changes.
      var idle := GoesIdle(gunner.facingRight, senses, state.patrolLeftPoint, state.patrolRightPoint);
      events := events + [S.StateFixedUpdated, S.Moved(Heading(gunner.facingRight))];
      ghost var moved := State();
      if senses.playerDetected {
        SetState(Chase(false));
      }
      assert State() == if senses.playerDetected then S.SetState(moved, Chase(false)) else moved;
      if idle {
        SetState(Idle(false));
      }
    }

    // -------------------------------------------------------------------
    // Contact with the player

    method OnCollisionEnter(withPlayer: bool)
      modifies this
      ensures State() == S.CollisionEnter(old(State()), withPlayer)
    {
      if withPlayer {
        events := events + [S.PlayerDamaged(contactDamage)];
        body := body.(velocity := Zero);
        body := body.(mass := S.ContactMass);
        body := body.(constraints := FreezeAll);
      }
    }

    method OnCollisionExit(withPlayer: bool)
      modifies this
      ensures State() == S.CollisionExit(old(State()), withPlayer)
    {
      if withPlayer {
        body := body.(constraints := saved.initialConstraints);
        body := body.(mass := saved.initialMass);
      }
    }
  }
}

=== FILE: EnemyBaseSpec.dfy ===
/** The enemy life cycle as values: health and hits, death and the delayed
    disable, re-enabling, the installed state object and the calls made on
    it each frame and fixed tick, and the contact lock of the rigid body.
    The enemy is a Gunner, so the installed state is a `GunnerState`, and
    the patrol state's own hooks are written out here. The class
    `EnemyBase.EnemyBase` is proved to follow these functions. */
module EnemyBaseSpec {
  import opened Engine
  import opened GunnerPatrol

  /** What the enemy asks of code outside this model, in order: the hooks
      of the installed state, the state it discards, its own death, the
      Gunner's flip and move, and damage dealt to the player. */
  datatype Event =
    | StateStarted
    | StateUpdated
    | StateFixedUpdated
    | GotHit
    | StateDestroyed(discarded: GunnerState)
    | Died
    | Flipped
    | Moved(direction: Vec2)
    | PlayerDamaged(damage: int)

  /** The one method the enemy schedules with `Invoke`. */
  datatype Callback = DisableUponDeath

  /** Seconds between death and the disable. */
  const DisableDelay: real := 3.0

  /** The mass set while the player touches the enemy. */
  const ContactMass: real := 100000000000.0

  /** `Rigidbody2D`: velocity, mass, constraints, and whether its body type
      is static (otherwise dynamic). */
  datatype Rigidbody = Rigidbody(velocity: Vec2, mass: real, constraints: Constraints, isStatic: bool)

  /** The transform. */
  datatype Pose = Pose(position: Vec2, rotation: Quaternion)

  /** What `Start` captures to restore later. */
  datatype Saved = Saved(startPosition: Vec2, startRotation: Quaternion, initialMass: real, initialConstraints: Constraints)

  /** The Gunner's own fields the patrol reads or writes. */
  datatype Patroller = Patroller(facingRight: bool, currentPatrolAnchor: Vec2, horizontalRange: real)

  datatype Enemy = Enemy(
    currentHealth: int,
    maxHealth: int,
    contactDamage: int,
    started: bool,
    saved: Saved,
    pose: Pose,
    body: Rigidbody,
    colliderEnabled: bool,
    active: bool,
    state: GunnerState,
    gunner: Patroller,
    events: seq<Event>,
    invokes: seq<Invocation<Callback>>)

  /** Both alive getters. */
  predicate IsAlive(e: Enemy) {
    e.currentHealth > 0
  }

  /** How many deaths an event log records. */
  function Deaths(events: seq<Event>): (n: nat)
    ensures n <= |events|
  {
    if events == [] then 0
    else Deaths(events[..|events| - 1]) + (if events[|events| - 1] == Died then 1 else 0)
  }

  lemma DeathsAppend(events: seq<Event>, more: seq<Event>)
    ensures Deaths(events + more) == Deaths(events) + Deaths(more)
    decreases |more|
  {
    if more == [] {
      assert events + more == events;
    } else {
      var last := |more| - 1;
      assert (events + more)[..|events + more| - 1] == events + more[..last];
      assert (events + more)[|events + more| - 1] == more[last];
      DeathsAppend(events, more[..last]);
    }
  }

  // ---------------------------------------------------------------------
  // Life cycle

  /** `Start`: the transform, mass and constraints as they are now are kept
      for later restoring. */
  function Start(e: Enemy): (r: Enemy)
    ensures r.saved.initialMass == e.body.mass && r.saved.initialConstraints == e.body.constraints
    ensures r.saved.startPosition == e.pose.position && r.saved.startRotation == e.pose.rotation
    ensures r == e.(saved := r.saved)
  {
    e.(saved := Saved(e.pose.position, e.pose.rotation, e.body.mass, e.body.constraints))
  }

  /** `OnEnable`: full health, and once started, back to the start pose.
      The installed state is left alone. */
  function OnEnable(e: Enemy): (r: Enemy)
    ensures r.currentHealth == r.maxHealth == e.maxHealth
    ensures IsAlive(r) <==> e.maxHealth > 0
    ensures r.state == e.state && r.events == e.events && r.body == e.body
    ensures e.started ==> r.pose == Pose(e.saved.startPosition, e.saved.startRotation)
    ensures !e.started ==> r.pose == e.pose
    ensures r == e.(currentHealth := r.currentHealth, pose := r.pose)
  {
    var h := e.(currentHealth := e.maxHealth);
    if e.started then h.(pose := Pose(e.saved.startPosition, e.saved.startRotation)) else h
  }

  /** `Die`: the body turns static, the collider off, and the disable is
      scheduled. */
  function Die(e: Enemy): (r: Enemy)
    ensures r.body.isStatic && !r.colliderEnabled
    ensures r.events == e.events + [Died]
    ensures r.invokes == e.invokes + [Invocation(DisableUponDeath, DisableDelay)]
    ensures r.currentHealth == e.currentHealth && r.state == e.state && r.active == e.active
    ensures r == e.(body := r.body, colliderEnabled := r.colliderEnabled, events := r.events, invokes := r.invokes) &&
            r.body == e.body.(isStatic := r.body.isStatic)
  {
    e.(body := e.body.(isStatic := true), colliderEnabled := false,
       events := e.events + [Died],
       invokes := e.invokes + [Invocation(DisableUponDeath, DisableDelay)])
  }

  /** The scheduled disable: the object is deactivated and its body and
      collider are made ready for the next life. */
  function Disable(e: Enemy): (r: Enemy)
    ensures !r.active && !r.body.isStatic && r.colliderEnabled
    ensures r.currentHealth == e.currentHealth && r.state == e.state && r.events == e.events
    ensures r == e.(active := r.active, body := r.body, colliderEnabled := r.colliderEnabled) &&
            r.body == e.body.(isStatic := r.body.isStatic)
  {
    e.(active := false, body := e.body.(isStatic := false), colliderEnabled := true)
  }

  /** The health left after a hit: lowered by the damage, never below zero. */
  function HealthAfterHit(health: int, damage: int): (h: int)
    ensures h >= 0
    ensures h == 0 <==> health <= damage
    ensures h > 0 ==> h == health - damage
  {
    MaxInt(health - damage, 0)
  }

  /** The non-generic `Hit`: a dead enemy ignores it; a live one loses
      health and dies exactly when the health reaches zero. */
  function BaseHit(e: Enemy, damage: int): (r: Enemy)
    ensures !IsAlive(e) ==> r == e
    ensures IsAlive(e) ==> r.currentHealth == HealthAfterHit(e.currentHealth, damage)
    ensures IsAlive(e) && !IsAlive(r) ==> r.events == e.events + [Died]
    ensures IsAlive(e) && IsAlive(r) ==> r == e.(currentHealth := r.currentHealth)
    ensures IsAlive(e) && !IsAlive(r) ==>
      r.body == e.body.(isStatic := true) && !r.colliderEnabled &&
      r.invokes == e.invokes + [Invocation(DisableUponDeath, DisableDelay)] &&
      r == e.(currentHealth := 0, body := r.body, colliderEnabled := false, events := r.events, invokes := r.invokes)
  {
    if !IsAlive(e) then e
    else
      var h := e.(currentHealth := HealthAfterHit(e.currentHealth, damage));
      if !IsAlive(h) then Die(h) else h
  }

  /** The generic `Hit`: as `BaseHit`, with the installed state told of the
      hit once, before any death. */
  function Hit(e: Enemy, damage: int): (r: Enemy)
    ensures !IsAlive(e) ==> r == e
    ensures IsAlive(e) ==> r.currentHealth == HealthAfterHit(e.currentHealth, damage)
    ensures IsAlive(e) && !IsAlive(r) ==> r.events == e.events + [GotHit, Died]
    ensures IsAlive(e) && IsAlive(r) ==> r.events == e.events + [GotHit]
    ensures IsAlive(e) && IsAlive(r) ==> r == e.(currentHealth := r.currentHealth, events := r.events)
    ensures IsAlive(e) && !IsAlive(r) ==>
      r.body == e.body.(isStatic := true) && !r.colliderEnabled &&
      r.invokes == e.invokes + [Invocation(DisableUponDeath, DisableDelay)] &&
      r == e.(currentHealth := 0, body := r.body, colliderEnabled := false, events := r.events, invokes := r.invokes)
    ensures r.state == e.state && r.maxHealth == e.maxHealth
  {
    if IsAlive(e) then
      var h := e.(currentHealth := HealthAfterHit(e.currentHealth, damage), events := e.events + [GotHit]);
      if !IsAlive(h) then Die(h) else h
    else e
  }

  /** The enemy after a run of hits, in order. */
  function HitAll(e: Enemy, damages: seq<int>): Enemy
    decreases |damages|
  {
    if damages == [] then e else HitAll(Hit(e, damages[0]), damages[1..])
  }

  /** Over any run of hits an enemy dies at most once: exactly once when it
      was alive before and is dead after, and not at all otherwise. */
  lemma {:induction false} OneDeathPerLife(e: Enemy, damages: seq<int>)
    ensures Deaths(HitAll(e, damages).events) ==
      Deaths(e.events) + (if IsAlive(e) && !IsAlive(HitAll(e, damages)) then 1 else 0)
    decreases |damages|
  {
    if damages != [] {
      var h := Hit(e, damages[0]);
      OneDeathPerLife(h, damages[1..]);
      assert HitAll(e, damages) == HitAll(h, damages[1..]);
      if IsAlive(e) && !IsAlive(h) {
        DeathsAppend(e.events, [GotHit, Died]);
        assert Deaths([GotHit, Died]) == 1 by {
          assert [GotHit, Died][..1] == [GotHit];
          assert [GotHit][..0] == [];
        }
        assert HitAll(h, damages[1..]) == h by { DeadStaysDead(h, damages[1..]); }
      } else if IsAlive(e) {
        DeathsAppend(e.events, [GotHit]);
        assert Deaths([GotHit]) == 0 by { assert [GotHit][..0] == []; }
      } else {
        DeadStaysDead(e, damages);
      }
    }
  }

  /** Hits on a dead enemy change nothing. */
  lemma {:induction false} DeadStaysDead(e: Enemy, damages: seq<int>)
    requires !IsAlive(e)
    ensures HitAll(e, damages) == e
    decreases |damages|
  {
    if damages != [] {
      DeadStaysDead(Hit(e, damages[0]), damages[1..]);
    }
  }

  // ---------------------------------------------------------------------
  // The installed state

  /** `SetState`: the installed state is discarded and `next` installed. */
  function SetState(e: Enemy, next: GunnerState): (r: Enemy)
    ensures r.state == next
    ensures r.events == e.events + [StateDestroyed(e.state)]
    ensures r == e.(state := next, events := r.events)
  {
    e.(events := e.events + [StateDestroyed(e.state)], state := next)
  }

  /** The patrol state's `StateStart`: the base start marks it started, the
      end points are set around the patrol anchor, and the Gunner flips. */
  function PatrolStart(e: Enemy): (r: Enemy)
    requires e.state.Patrol?
    ensures var anchors := PatrolAnchors(e.gunner.currentPatrolAnchor, e.gunner.horizontalRange);
      r.state == Patrol(true, anchors.0, anchors.1)
    ensures r.gunner == e.gunner.(facingRight := !e.gunner.facingRight)
    ensures r.events == e.events + [StateStarted, Flipped]
    ensures r == e.(state := r.state, gunner := r.gunner, events := r.events)
  {
    var anchors := PatrolAnchors(e.gunner.currentPatrolAnchor, e.gunner.horizontalRange);
    e.(state := Patrol(true, anchors.0, anchors.1),
       gunner := e.gunner.(facingRight := !e.gunner.facingRight),
       events := e.events + [StateStarted, Flipped])
  }

  /** `StateStart` of the installed state. The chase and idle states are
      taken to do no more than mark themselves started. */
  function StateStart(e: Enemy): (r: Enemy)
    ensures r.state.initialized
    ensures r.currentHealth == e.currentHealth
    ensures |r.events| > |e.events| && r.events[|e.events|] == StateStarted
    ensures r == e.(state := r.state, gunner := r.gunner, events := r.events)
    ensures r.state.Patrol? == e.state.Patrol? && r.state.Chase? == e.state.Chase?
    ensures e.state.Patrol? ==> r == PatrolStart(e)
    ensures e.state.Chase? ==> r == e.(state := Chase(true), events := e.events + [StateStarted])
    ensures e.state.Idle? ==> r == e.(state := Idle(true), events := e.events + [StateStarted])
  {
    match e.state
    case Patrol(_, _, _) => PatrolStart(e)
    case Chase(_) => e.(state := Chase(true), events := e.events + [StateStarted])
    case Idle(_) => e.(state := Idle(true), events := e.events + [StateStarted])
  }

  /** The patrol state's `StateFixedUpdate`: the Gunner moves the way it
      faces, a chase state is installed when the player is seen, then an
      idle state when a wall, a ledge or the end point is met. */
  function PatrolFixedUpdate(e: Enemy, senses: Senses): Enemy
    requires e.state.Patrol?
  {
    var moved := e.(events := e.events + [StateFixedUpdated, Moved(Heading(e.gunner.facingRight))]);
    var chased := if senses.playerDetected then SetState(moved, Chase(false)) else moved;
    if GoesIdle(e.gunner.facingRight, senses, e.state.patrolLeftPoint, e.state.patrolRightPoint)
    then SetState(chased, Idle(false))
    else chased
  }

  /** A patrol tick moves the Gunner the way it faces before anything
      else, installs the state the patrol transition picks, and changes
      nothing but the installed state and the calls made. */
  lemma PatrolTick(e: Enemy, senses: Senses)
    requires e.state.Patrol?
    ensures var r := PatrolFixedUpdate(e, senses);
      r.state == PatrolTransition(e.state, e.gunner.facingRight, senses, e.state.patrolLeftPoint, e.state.patrolRightPoint) &&
      |r.events| >= |e.events| + 2 &&
      r.events[..|e.events| + 2] == e.events + [StateFixedUpdated, Moved(Heading(e.gunner.facingRight))] &&
      r == e.(state := r.state, events := r.events)
  {
    var moved := e.(events := e.events + [StateFixedUpdated, Moved(Heading(e.gunner.facingRight))]);
    var chased := if senses.playerDetected then SetState(moved, Chase(false)) else moved;
    assert chased.events[..|moved.events|] == moved.events;
    var r := PatrolFixedUpdate(e, senses);
    assert r.events[..|moved.events|] == moved.events;
  }

  /** `StateFixedUpdate` of the installed state; only the patrol state's is
      part of this model. */
  function StateFixedUpdate(e: Enemy, senses: Senses): Enemy {
    if e.state.Patrol? then PatrolFixedUpdate(e, senses)
    else e.(events := e.events + [StateFixedUpdated])
  }

  /** `StateUpdate` of the installed state; none is part of this model. */
  function StateUpdate(e: Enemy): Enemy {
    e.(events := e.events + [StateUpdated])
  }

  /** Once per frame: nothing while dead; otherwise the installed state is
      started if it is not yet, then updated. */
  function Update(e: Enemy): (r: Enemy)
    ensures !IsAlive(e) ==> r == e
    ensures IsAlive(e) ==> r.state.initialized
    ensures IsAlive(e) && e.state.initialized ==> r == e.(events := e.events + [StateUpdated])
    ensures IsAlive(e) && !e.state.initialized ==>
      |r.events| >= |e.events| + 2 && r.events[|e.events|] == StateStarted && r.events[|r.events| - 1] == StateUpdated
    ensures IsAlive(e) && !e.state.initialized ==>
      r == StateStart(e).(events := StateStart(e).events + [StateUpdated])
    ensures r == e.(state := r.state, gunner := r.gunner, events := r.events)
    ensures r.state.Patrol? == e.state.Patrol? && r.state.Chase? == e.state.Chase?
  {
    if IsAlive(e) then
      var s := if !e.state.initialized then StateStart(e) else e;
      StateUpdate(s)
    else e
  }

  /** Once per physics tick: nothing while dead; otherwise the installed
      state is started if it is not yet, then given the tick. */
  function FixedUpdate(e: Enemy, senses: Senses): Enemy {
    if IsAlive(e) then
      var s := if !e.state.initialized then StateStart(e) else e;
      StateFixedUpdate(s, senses)
    else e
  }

  /** A tick of a dead enemy does nothing; a tick of a live enemy whose
      patrol has started moves it the way it faces and installs the state
      the patrol transition picks. */
  lemma FixedUpdateStartedPatrol(e: Enemy, senses: Senses)
    ensures !IsAlive(e) ==> FixedUpdate(e, senses) == e
    ensures IsAlive(e) && e.state.Patrol? && e.state.initialized ==>
      var r := FixedUpdate(e, senses);
      r.state == PatrolTransition(e.state, e.gunner.facingRight, senses, e.state.patrolLeftPoint, e.state.patrolRightPoint) &&
      r.events[..|e.events| + 2] == e.events + [StateFixedUpdated, Moved(Heading(e.gunner.facingRight))] &&
      r.gunner == e.gunner && r.currentHealth == e.currentHealth &&
      r == e.(state := r.state, events := r.events)
  {
    if IsAlive(e) && e.state.Patrol? && e.state.initialized {
      PatrolTick(e, senses);
    }
  }

  /** The first tick of a live enemy with a fresh patrol state starts it
      first: the Gunner flips, the end points are set around the patrol
      anchor, and the move and the transition use the new facing and the new
      end points. */
  lemma FixedUpdateFreshPatrol(e: Enemy, senses: Senses)
    requires IsAlive(e) && e.state.Patrol? && !e.state.initialized
    ensures var anchors := PatrolAnchors(e.gunner.currentPatrolAnchor, e.gunner.horizontalRange);
      var r := FixedUpdate(e, senses);
      r.state == PatrolTransition(Patrol(true, anchors.0, anchors.1), !e.gunner.facingRight, senses, anchors.0, anchors.1) &&
      r.events[..|e.events| + 4] == e.events + [StateStarted, Flipped, StateFixedUpdated, Moved(Heading(!e.gunner.facingRight))] &&
      r.gunner.facingRight == !e.gunner.facingRight &&
      r == e.(state := r.state, gunner := e.gunner.(facingRight := !e.gunner.facingRight), events := r.events)
  {
    var s := PatrolStart(e);
    var r := PatrolFixedUpdate(s, senses);
    PatrolTick(s, senses);
    assert FixedUpdate(e, senses) == r;
    assert r.events[..|e.events| + 4] == r.events[..|s.events| + 2];
  }

  // ---------------------------------------------------------------------
  // Contact with the player

  /** The player touching the enemy is damaged, and the enemy is pinned:
      stopped, made very heavy and frozen. */
  function CollisionEnter(e: Enemy, withPlayer: bool): (r: Enemy)
    ensures !withPlayer ==> r == e
    ensures withPlayer ==>
      r.body == e.body.(velocity := Zero, mass := ContactMass, constraints := FreezeAll) &&
      r.events == e.events + [PlayerDamaged(e.contactDamage)] &&
      r == e.(body := r.body, events := r.events)
  {
    if withPlayer then
      e.(events := e.events + [PlayerDamaged(e.contactDamage)],
         body := e.body.(velocity := Zero, mass := ContactMass, constraints := FreezeAll))
    else e
  }

  /** The player leaving restores the constraints and mass kept by `Start`. */
  function CollisionExit(e: Enemy, withPlayer: bool): (r: Enemy)
    ensures !withPlayer ==> r == e
    ensures withPlayer ==> r.body.constraints == e.saved.initialConstraints && r.body.mass == e.saved.initialMass
    ensures withPlayer ==> r == e.(body := e.body.(constraints := r.body.constraints, mass := r.body.mass))
  {
    if withPlayer then e.(body := e.body.(constraints := e.saved.initialConstraints, mass := e.saved.initialMass))
    else e
  }

  /** Touching the player and leaving again after `Start` gives back the
      body as it was, stopped. */
  lemma ContactLockIsUndone(e: Enemy)
    ensures CollisionExit(CollisionEnter(Start(e), true), true).body == e.body.(velocity := Zero)
  {
  }
}

=== FILE: Engine.dfy ===
/** Values the game engine hands to the game scripts: 2-D vectors, rotations,
    the rigid-body constraint mask, and the record of an `Invoke` call.
    Also the two small numeric helpers of the engine's math library that the
    scripts rely on. */
module Engine {

  /** `Vector2`. */
  datatype Vec2 = Vec2(x: real, y: real)

  const Zero: Vec2 := Vec2(0.0, 0.0)

  /** `Quaternion`, kept only to be stored and restored. */
  datatype Quaternion = Quaternion(x: real, y: real, z: real, w: real)

  /** `RigidbodyConstraints2D`, a mask of three freeze bits. */
  datatype Constraints = Constraints(freezePositionX: bool, freezePositionY: bool, freezeRotation: bool)

  const FreezeRotation: Constraints := Constraints(false, false, true)
  const FreezeRotationAndPositionY: Constraints := Constraints(false, true, true)
  const FreezeAll: Constraints := Constraints(true, true, true)

  /** One call of `MonoBehaviour.Invoke(name, delay)`: the callback asked for
      and the delay after which the engine is to run it. */
  datatype Invocation<C> = Invocation(callback: C, delay: real)

  /** `Math.Abs`. */
  function Abs(v: real): (r: real)
    ensures r >= 0.0
    ensures r == v || r == -v
  {
    if v < 0.0 then -v else v
  }

  /** `Mathf.Clamp(value, min, max)`: a value below `min` becomes `min`,
      otherwise a value above `max` becomes `max`. */
  function Clamp(value: real, lo: real, hi: real): (r: real)
    ensures lo <= hi ==> lo <= r <= hi
    ensures lo <= value <= hi ==> r == value
    ensures value < lo ==> r == lo
    ensures lo <= hi && value > hi ==> r == hi
  {
    if value < lo then lo else if value > hi then hi else value
  }

  /** `Mathf.Max` on integers. */
  function MaxInt(a: int, b: int): (r: int)
    ensures r >= a && r >= b
    ensures r == a || r == b
  {
    if a >= b then a else b
  }
}

=== FILE: GunnerPatrol.dfy ===
/** The Gunner's patrol behaviour: the state objects a Gunner can have
    installed, the patrol end points, the boundary test, and which state a
    patrol tick leaves installed. The effects of the patrol hooks on the
    Gunner itself (its flip, its movement, the `SetState` calls) are methods
    of the enemy class in `EnemyBase`, proved against the functions here. */
module GunnerPatrol {
  import opened Engine

  /** The state object a Gunner has installed. `initialized` is the flag
      `StateStart` sets; the patrol state also holds its two end points. */
  datatype GunnerState =
    | Patrol(initialized: bool, patrolLeftPoint: Vec2, patrolRightPoint: Vec2)
    | Chase(initialized: bool)
    | Idle(initialized: bool)

  /** A freshly created patrol state, before its `StateStart`. */
  const NewPatrol: GunnerState := Patrol(false, Zero, Zero)

  /** How close to the end point in the direction of travel counts as
      having reached it. */
  const Tolerance: real := 0.05

  /** What the Gunner senses during one fixed tick. */
  datatype Senses = Senses(playerDetected: bool, touchingWall: bool, touchingGround: bool, x: real)

  /** The two patrol end points: the patrol anchor moved left and right by
      the horizontal range. */
  function PatrolAnchors(anchor: Vec2, horizontalRange: real): (r: (Vec2, Vec2))
    ensures r.0.y == anchor.y && r.1.y == anchor.y
    ensures r.0.x + r.1.x == 2.0 * anchor.x
    ensures r.1.x - r.0.x == 2.0 * horizontalRange
    ensures horizontalRange >= 0.0 ==> r.0.x <= anchor.x <= r.1.x
  {
    (Vec2(anchor.x - horizontalRange, anchor.y), Vec2(anchor.x + horizontalRange, anchor.y))
  }

  /** The direction `MoveInDirection` is given: the way the Gunner faces. */
  function Heading(facingRight: bool): (r: Vec2)
    ensures r.y == 0.0 && Abs(r.x) == 1.0
    ensures r.x > 0.0 <==> facingRight
  {
    if facingRight then Vec2(1.0, 0.0) else Vec2(-1.0, 0.0)
  }

  /** Whether the patrol has reached the end point it is walking towards:
      only the end point ahead is looked at, whatever the other one is. */
  function TimeToChange(facingRight: bool, x: real, left: Vec2, right: Vec2): (r: bool)
    ensures r <==> Abs(x - (if facingRight then right else left).x) <= Tolerance
  {
    if !facingRight && Abs(x - left.x) <= Tolerance then true
    else if facingRight && Abs(x - right.x) <= Tolerance then true
    else false
  }

  /** Whether the patrol tick hands over to the idle state. */
  predicate GoesIdle(facingRight: bool, senses: Senses, left: Vec2, right: Vec2) {
    senses.touchingWall || !senses.touchingGround || TimeToChange(facingRight, senses.x, left, right)
  }

  /** The state installed after a patrol tick that starts with `current`
      installed. A wall, a missing floor or the end point installs a fresh
      idle state, even when the player was seen in the same tick (the later
      `SetState` replaces the earlier); otherwise the player seen installs a
      fresh chase state, and nothing seen leaves `current`. */
  function PatrolTransition(current: GunnerState, facingRight: bool, senses: Senses, left: Vec2, right: Vec2): (r: GunnerState)
    ensures GoesIdle(facingRight, senses, left, right) ==> r == Idle(false)
    ensures !GoesIdle(facingRight, senses, left, right) && senses.playerDetected ==> r == Chase(false)
    ensures !GoesIdle(facingRight, senses, left, right) && !senses.playerDetected ==> r == current
  {
    var afterChase := if senses.playerDetected then Chase(false) else current;
    if GoesIdle(facingRight, senses, left, right) then Idle(false) else afterChase
  }
}

=== FILE: PlayerMovement.dfy ===
/** The player's locomotion controller as the object the game runs: its
    private fields (grouped in the records of `PlayerMovementSpec`), the
    player-entity flags it shares, the rigid body and transform it drives,
    and the `Invoke` calls it has made. Every method updates the fields in
    the order the controller does, and is proved to leave the state its step
    function in `PlayerMovementSpec` describes. */
module PlayerMovement {
  import opened Engine
  import S = PlayerMovementSpec
  import L = PlayerMovementLemmas

  class PlayerMovement {
    /** Inspector settings. */
    const cfg: S.Tuning

    /** Ledge detection and hanging. */
    var ledge: S.Ledge
    /** Movement-mode flags. */
    var modes: S.Modes
    /** Buff timers, the values they select, the dash and jump clocks. */
    var clocks: S.Clocks
    /** Input-frame counters and midair jumps left. */
    var counters: S.Counters
    /** Rigid-body velocity and constraints, transform position. */
    var body: S.Body
    /** The player-entity flags the controller shares. */
    var entity: S.Entity
    /** Every `Invoke` made so far, oldest first. */
    var invokes: seq<Invocation<S.Callback>>

    /** The fields as one value. */
    function State(): S.Locomotion
      reads this
    {
      S.Locomotion(ledge, modes, clocks, counters, body, entity, invokes)
    }

    predicate Valid()
      reads this
    {
      S.Consistent(State())
    }

    /** Field defaults, then `Start`. */
    constructor (cfg: S.Tuning, unlockedDoubleJump: bool, unlockedMorphBall: bool, position: Vec2)
      ensures this.cfg == cfg
      ensures State() == S.Started(cfg, unlockedDoubleJump, unlockedMorphBall, position)
      ensures Valid()
    {
      this.cfg := cfg;
      ledge := S.Ledge(false, false, false, false, false, false, false, false, false, Zero, Zero, Zero);
      modes := S.Modes(false, false, false, false, false, false, false, false, false, false);
      clocks := S.Clocks(0.0, 0.0, 0.0, 0.0, 0.0, 0.0, 0.0);
      counters := S.Counters(0, 0, 0, 0);
      body := S.Body(Zero, Constraints(false, false, false), position);
      entity := S.Entity(false, false, unlockedDoubleJump, unlockedMorphBall, false);
      invokes := [];
      new;
      // Start
      body := body.(constraints := FreezeRotation);
      ledge := ledge.(canDetectLedge := true);
      clocks := clocks.(dashCooldownLeft := 0.0, dashTime := cfg.startDashTime);
      modes := modes.(facingRight := true);
      counters := counters.(midairJumps := cfg.numberOfMidairJumps);
    }

    /** `MonoBehaviour.Invoke`: the call is recorded for the engine to run later. */
    method Invoke(cb: S.Callback, delay: real)
      modifies this
      ensures State() == S.Schedule(old(State()), cb, delay)
    {
      invokes := invokes + [Invocation(cb, delay)];
    }

    // -------------------------------------------------------------------
    // Posture

    method Crouch()
      modifies this
      ensures State() == S.Crouch(old(State()))
    {
      entity := entity.(isCrouched := true);
      entity := entity.(isMorphed := false);
    }

    method Uncrouch()
      modifies this
      ensures State() == S.Uncrouch(old(State()))
    {
      entity := entity.(isCrouched := false);
    }

    method Morph()
      modifies this
      ensures State() == S.Morph(old(State()))
    {
      if entity.unlockedMorphBall {
        modes := modes.(fakeMidairCrouch := false);
        entity := entity.(isCrouched := false);
        entity := entity.(isMorphed := true);
      }
    }

    method KillMomentum()
      modifies this
      requires Valid()
      ensures State() == old(State()).(body := old(body).(velocity := Zero))
      ensures Valid()
    {
      body := body.(velocity := Zero);
    }

    // -------------------------------------------------------------------
    // One physics tick

    method Move(xInput: real, yInput: real, jump: bool, dash: bool, dt: real)
      requires Valid()
      modifies this
      ensures State() == S.Move(old(State()), cfg, S.Controls(xInput, yInput, jump, dash), dt)
      ensures Valid()
    {
      ghost var s0 := State();
      ghost var c := S.Controls(xInput, yInput, jump, dash);
      L.MoveKeepsConsistent(s0, cfg, c, dt);
      Flip(xInput);
      ExpireDash();
      RefillMidairJumps();
      ArmWallJump();
      assert State() == S.Prelude(s0, cfg, xInput);
      PressDash(xInput, dash);
      TickDash(dt);
      assert State() == S.DashPhase(S.Prelude(s0, cfg, xInput), cfg, c, dt);
      VerticalInput(xInput, yInput);
      assert State() == S.BeforeJump(s0, cfg, c, dt);
      if jump && !S.Dashing(State()) && S.HangingToLedge(State()) && counters.previousJumpFrames == 0 {
        L.BeforeJumpFrame(s0, cfg, c, dt);
        LedgeJump(xInput);
        return;
      }
      Jump(jump, dt);
      Run(xInput);
    }

    method Flip(xInput: real)
      modifies this
      ensures State() == S.FlipStep(old(State()), xInput)
    {
      if S.HasToFlip(State(), xInput) {
        modes := modes.(facingRight := !modes.facingRight);
      }
    }

    method ExpireDash()
      modifies this
      ensures State() == S.ExpireDash(old(State()), cfg)
    {
      if S.Dashing(State()) && clocks.dashTime < 0.0 {
        modes := modes.(dashingRight := false);
        modes := modes.(dashingLeft := false);
        clocks := clocks.(dashTime := cfg.startDashTime);
        body := body.(constraints := FreezeRotation);
        clocks := clocks.(dashCooldownLeft := cfg.dashCooldown);
      }
    }

    method RefillMidairJumps()
      modifies this
      ensures State() == S.RefillMidairJumps(old(State()), cfg)
    {
      if S.CanJump(State()) {
        counters := counters.(midairJumps := cfg.numberOfMidairJumps);
      }
    }

    method ArmWallJump()
      modifies this
      ensures State() == S.ArmWallJump(old(State()), cfg)
    {
      if !S.HangingToLedge(State()) {
        if S.CanWallJump(State()) {
          modes := modes.(canWallJump := true);
        } else if modes.canWallJump {
          Invoke(S.StopWallJump, cfg.wallJumpWindow);
        }
      }
    }

    method PressDash(xInput: real, dash: bool)
      modifies this
      ensures State() == S.StartDash(old(State()), xInput, dash)
    {
      if dash && clocks.dashCooldownLeft < 0.0 {
        if entity.isCrouched {
          Uncrouch();
        }
        if Abs(xInput) <= S.Deadzone {
        } else if xInput > 0.0 {
          modes := modes.(dashingRight := true);
          body := body.(constraints := FreezeRotationAndPositionY);
        } else if xInput < 0.0 {
          modes := modes.(dashingLeft := true);
          body := body.(constraints := FreezeRotationAndPositionY);
        }
      }
    }

    method TickDash(dt: real)
      modifies this
      ensures State() == S.TickDash(old(State()), cfg, dt)
    {
      if modes.dashingRight {
        clocks := clocks.(dashTime := clocks.dashTime - dt);
        body := body.(velocity := Vec2(cfg.dashSpeed, 0.0));
      } else if modes.dashingLeft {
        clocks := clocks.(dashTime := clocks.dashTime - dt);
        body := body.(velocity := Vec2(-cfg.dashSpeed, 0.0));
      }
    }

    method VerticalInput(xInput: real, yInput: real)
      modifies this
      ensures State() == S.VerticalInput(old(State()), cfg, xInput, yInput)
    {
      if yInput < 0.0 {
        counters := counters.(previousDownFrames := counters.previousDownFrames + 1);
        if counters.previousDownFrames == 1 && S.CanCrouch(State()) && Abs(xInput) <= S.Deadzone {
          Crouch();
        } else if counters.previousDownFrames == 1 && !modes.isGrounded && !S.CanMorph(State(), xInput) {
          modes := modes.(fakeMidairCrouch := true);
          Invoke(S.ResetMidAirMorphWindow, cfg.midAirMorphWindow);
        } else if counters.previousDownFrames == 1 && S.CanMorph(State(), xInput) {
          Morph();
        }
      } else if yInput > 0.0 && Abs(xInput) <= S.Deadzone {
        counters := counters.(previousUpFrames := counters.previousUpFrames + 1);
        if counters.previousUpFrames == 1 && entity.isCrouched {
          Uncrouch();
        } else if counters.previousUpFrames == 1 && entity.isMorphed {
          if modes.isGrounded {
            Crouch();
          } else {
            Uncrouch();
          }
        }
      } else {
        counters := counters.(previousDownFrames := 0, previousUpFrames := 0);
      }
    }

    /** The first jump frame while hanging. */
    method LedgeJump(xInput: real)
      requires Valid()
      modifies this
      ensures State() == S.LedgeJump(old(State()), cfg, xInput)
      ensures Valid()
    {
      if S.InputAwayFromWall(State(), xInput) {
        DropLedge();
        modes := modes.(isJumping := true);
        clocks := clocks.(jumpTimeCounter := cfg.jumpTime);
        body := body.(velocity := Vec2(0.0, clocks.currentJumpForce));
      } else if S.InputTowardWall(State(), xInput) {
        KillMomentum();
        ledge := ledge.(isClimbing := true);
        Invoke(S.FinishLedgeClimb, cfg.climbDuration);
      } else {
        DropLedge();
        modes := modes.(isJumping := true);
        clocks := clocks.(jumpTimeCounter := 0.0);
        body := body.(velocity := Zero);
      }
      counters := counters.(previousJumpFrames := counters.previousJumpFrames + 1);
    }

    method DropLedge()
      modifies this
      ensures State() == S.DropLedge(old(State()), cfg)
    {
      ledge := ledge.(canDetectLedge := false);
      Invoke(S.ReCheckLedges, cfg.ledgeDropWindow);
      ledge := ledge.(canClimbLedge := false, canClimbLedgeMorph := false);
      ledge := ledge.(ledgeDetected := false, ledgeDetectedMorph := false);
    }

    /** The jump handling other than the ledge case. */
    method Jump(jump: bool, dt: real)
      modifies this
      ensures State() == S.Jump(old(State()), cfg, jump, dt)
    {
      if jump && !S.Dashing(State()) {
        if S.CanJump(State()) && counters.previousJumpFrames == 0 {
          if entity.isCrouched {
            Uncrouch();
          }
          modes := modes.(isJumping := true);
          clocks := clocks.(jumpTimeCounter := cfg.jumpTime);
          body := body.(velocity := Vec2(0.0, clocks.currentJumpForce));
        } else if entity.unlockedDoubleJump && counters.midairJumps > 0 && counters.previousJumpFrames == 0 {
          counters := counters.(midairJumps := counters.midairJumps - 1);
          modes := modes.(isJumping := true);
          clocks := clocks.(jumpTimeCounter := cfg.jumpTime);
          body := body.(velocity := Zero);
          body := body.(velocity := Vec2(0.0, clocks.currentJumpForce));
        } else if modes.isJumping {
          if clocks.jumpTimeCounter > 0.0 {
            body := body.(velocity := Vec2(0.0, clocks.currentJumpForce));
            clocks := clocks.(jumpTimeCounter := clocks.jumpTimeCounter - dt);
          } else {
            modes := modes.(isJumping := false);
          }
        }
        counters := counters.(previousJumpFrames := counters.previousJumpFrames + 1);
      } else {
        modes := modes.(isJumping := false);
        counters := counters.(previousJumpFrames := 0);
      }
    }

    method Run(xInput: real)
      modifies this
      ensures State() == S.Run(old(State()), xInput)
    {
      if !S.Dashing(State()) && !S.HangingToLedge(State()) {
        if entity.isCrouched && Abs(xInput) >= S.Deadzone {
          Uncrouch();
        }
        body := body.(velocity := Vec2(clocks.currentMoveSpeed * xInput, body.velocity.y));
      }
    }

    // -------------------------------------------------------------------
    // One frame

    method Update(rays: S.RayHits, dt: real)
      requires Valid()
      modifies this
      ensures State() == S.FrameUpdate(old(State()), cfg, rays, dt)
      ensures Valid()
    {
      L.FrameUpdateKeepsConsistent(State(), cfg, rays, dt);
      CheckSurroundings(rays);
      CheckLedgeClimb();
      clocks := clocks.(dashCooldownLeft := clocks.dashCooldownLeft - dt);
      clocks := clocks.(currentJumpTimer := clocks.currentJumpTimer - dt);
      if clocks.currentJumpTimer < 0.0 {
        clocks := clocks.(currentJumpForce := cfg.normalJumpForce);
      } else {
        clocks := clocks.(currentJumpForce := cfg.boostedJumpForce);
      }
      clocks := clocks.(currentMoveTimer := clocks.currentMoveTimer - dt);
      if clocks.currentMoveTimer < 0.0 {
        clocks := clocks.(currentMoveSpeed := cfg.normalMoveSpeed);
      } else {
        clocks := clocks.(currentMoveSpeed := cfg.boostedMoveSpeed);
      }
      modes := modes.(isSomersaulting := !modes.isGrounded && Abs(body.velocity.x) >= cfg.somersaultThreshold);
    }

    method CheckSurroundings(rays: S.RayHits)
      modifies this
      ensures State() == S.CheckSurroundings(old(State()), rays)
    {
      if !ledge.canDetectLedge || S.HangingToLedge(State()) || entity.isCrouched || entity.isMorphed {
        ledge := ledge.(detectedWall := false, detectedLedgeBottom := false, detectedLedgeTop := false);
        return;
      }
      ledge := ledge.(detectedWall := rays.wall, detectedLedgeBottom := rays.ledgeBottom, detectedLedgeTop := rays.ledgeTop);
      if ledge.detectedWall && !ledge.detectedLedgeBottom && ledge.detectedLedgeTop && !ledge.ledgeDetectedMorph {
        ledge := ledge.(ledgeDetectedMorph := true, ledgeDetected := false, ledgePosBottom := rays.wallRayOrigin);
      } else if !ledge.detectedLedgeBottom && ledge.detectedWall && !ledge.detectedLedgeBottom &&
                !ledge.detectedLedgeTop && !ledge.ledgeDetected {
        ledge := ledge.(ledgeDetected := true, ledgeDetectedMorph := false, ledgePosBottom := rays.wallRayOrigin);
      }
    }

    method CheckLedgeClimb()
      modifies this
      ensures State() == S.CheckLedgeClimb(old(State()), cfg)
    {
      if !ledge.canDetectLedge || entity.isMorphed || entity.isCrouched {
        return;
      }
      ghost var s0 := State();
      if ledge.ledgeDetectedMorph && !ledge.canClimbLedgeMorph {
        ledge := ledge.(canClimbLedgeMorph := true, canClimbLedge := false);
      }
      if !ledge.canClimbLedgeMorph && ledge.ledgeDetected && !ledge.canClimbLedge {
        ledge := ledge.(canClimbLedge := true, canClimbLedgeMorph := false);
      }
      var anchors := S.LedgeAnchors(modes.facingRight, ledge.ledgePosBottom, cfg);
      ledge := ledge.(ledgePos1 := anchors.0, ledgePos2 := anchors.1);
      assert State() == s0.(ledge := ledge);
      if ledge.canClimbLedge || ledge.canClimbLedgeMorph {
        body := body.(position := ledge.ledgePos1);
      }
    }

    // -------------------------------------------------------------------
    // Callbacks run by the engine after an `Invoke`

    method StopWallJump()
      modifies this
      requires Valid()
      ensures State() == S.Fire(old(State()), cfg, S.StopWallJump)
      ensures Valid()
    {
      modes := modes.(canWallJump := false);
    }

    method ReCheckLedges()
      modifies this
      requires Valid()
      ensures State() == S.Fire(old(State()), cfg, S.ReCheckLedges)
      ensures Valid()
    {
      ledge := ledge.(canDetectLedge := true);
    }

    method FinishLedgeClimb()
      modifies this
      requires Valid()
      ensures State() == S.Fire(old(State()), cfg, S.FinishLedgeClimb)
      ensures Valid()
    {
      if ledge.canClimbLedgeMorph {
        if !entity.unlockedMorphBall {
          return;
        }
        Morph();
      }
      KillMomentum();
      body := body.(constraints := FreezeAll);
      entity := entity.(frozeControls := true);
      body := body.(position := ledge.ledgePos2);
      ledge := ledge.(canClimbLedge := false, canClimbLedgeMorph := false);
      ledge := ledge.(ledgeDetected := false, ledgeDetectedMorph := false);
      Invoke(S.RegainControl, cfg.ledgeFreezeControlsWindow);
    }

    method RegainControl()
      modifies this
      requires Valid()
      ensures State() == S.Fire(old(State()), cfg, S.RegainControl)
      ensures Valid()
    {
      ledge := ledge.(isClimbing := false);
      body := body.(constraints := FreezeRotation);
      entity := entity.(frozeControls := false);
    }

    method ResetMidAirMorphWindow()
      modifies this
      requires Valid()
      ensures State() == S.Fire(old(State()), cfg, S.ResetMidAirMorphWindow)
      ensures Valid()
    {
      modes := modes.(fakeMidairCrouch := false);
    }

    // -------------------------------------------------------------------
    // Contact-sensor edges

    method ContactStarted(sensor: S.Sensor)
      modifies this
      requires Valid()
      ensures State() == S.ContactStarted(old(State()), sensor)
      ensures Valid()
    {
      match sensor
      case Feet =>
        ledge := ledge.(canDetectLedge := true);
        modes := modes.(isGrounded := true);
        counters := counters.(midairJumps := 0);
        modes := modes.(isJumping := false, isSomersaulting := false);
      case LeftWall =>
        modes := modes.(isHuggingWallLeft := true, dashingLeft := false, dashingRight := false);
        body := body.(constraints := FreezeRotation);
      case RightWall =>
        modes := modes.(isHuggingWallRight := true, dashingLeft := false, dashingRight := false);
        body := body.(constraints := FreezeRotation);
    }

    method ContactStopped(sensor: S.Sensor)
      modifies this
      requires Valid()
      ensures State() == S.ContactStopped(old(State()), sensor)
      ensures Valid()
    {
      match sensor
      case Feet => modes := modes.(isGrounded := false);
      case LeftWall => modes := modes.(isHuggingWallLeft := false);
      case RightWall => modes := modes.(isHuggingWallRight := false);
    }

    // -------------------------------------------------------------------
    // Buffs

    /** As written: the jump timer is reset when spent, then overwritten
        from the move timer. */
    method IncreaseJumpTimer(time: real)
      modifies this
      requires Valid()
      ensures State() == S.IncreaseJumpTimer(old(State()), cfg, time)
      ensures Valid()
    {
      if clocks.currentJumpTimer < 0.0 {
        clocks := clocks.(currentJumpTimer := 0.0);
      }
      clocks := clocks.(currentJumpTimer := Clamp(clocks.currentMoveTimer + time, 0.0, cfg.maxJumpBuffTime));
    }

    method IncreaseMoveTimer(time: real)
      modifies this
      requires Valid()
      ensures State() == S.IncreaseMoveTimer(old(State()), cfg, time)
      ensures Valid()
    {
      if clocks.currentMoveTimer < 0.0 {
        clocks := clocks.(currentMoveTimer := 0.0);
      }
      clocks := clocks.(currentMoveTimer := Clamp(clocks.currentMoveTimer + time, 0.0, cfg.maxSpeedBuffTime));
    }
  }
}

=== FILE: PlayerMovementLemmas.dfy ===
/** What the locomotion controller keeps true, stated over the functions of
    `PlayerMovementSpec`: first about the phases `Move` is built from, then
    about a whole tick, then about any run of ticks, frames, contacts and
    callbacks. */
module PlayerMovementLemmas {
  import opened Engine
  import opened PlayerMovementSpec

  // ---------------------------------------------------------------------
  // The phases before the jump handling

  /** The first four steps keep the invariant and touch neither the ledge
      record, the posture nor the frame counters. */
  lemma PreludeFrame(s: Locomotion, cfg: Tuning, x: real)
    ensures var r := Prelude(s, cfg, x);
      && (Consistent(s) ==> Consistent(r))
      && r.ledge == s.ledge && r.entity == s.entity
      && r.counters == s.counters.(midairJumps := r.counters.midairJumps)
      && (r.counters.midairJumps == s.counters.midairJumps || r.counters.midairJumps == cfg.numberOfMidairJumps)
  {
    var e := ExpireDash(FlipStep(s, x), cfg);
    assert e.ledge == s.ledge && e.entity == s.entity && e.counters == s.counters;
    var f := RefillMidairJumps(e, cfg);
    assert f.ledge == s.ledge && f.entity == s.entity;
  }

  /** While hanging, the first four steps keep the facing. */
  lemma PreludeKeepsFacingWhileHanging(s: Locomotion, cfg: Tuning, x: real)
    requires HangingToLedge(s)
    ensures Prelude(s, cfg, x).modes.facingRight == s.modes.facingRight
  {
    var e := ExpireDash(FlipStep(s, x), cfg);
    assert e.modes.facingRight == s.modes.facingRight && e.ledge == s.ledge;
  }

  /** Refilling and arming leave facing, dash flags and clocks alone. */
  lemma RefillAndArmKeepHeading(s: Locomotion, cfg: Tuning)
    ensures var r := ArmWallJump(RefillMidairJumps(s, cfg), cfg);
      SameHeading(r.modes, s.modes) && r.clocks == s.clocks
  {
    var f := RefillMidairJumps(s, cfg);
    assert SameHeading(f.modes, s.modes) && f.clocks == s.clocks;
  }

  /** After the first four steps the two dash flags are not both raised
      unless they were before. */
  lemma PreludeDashExclusive(s: Locomotion, cfg: Tuning, x: real)
    requires !(s.modes.dashingLeft && s.modes.dashingRight)
    ensures var r := Prelude(s, cfg, x); !(r.modes.dashingLeft && r.modes.dashingRight)
  {
    var e := ExpireDash(FlipStep(s, x), cfg);
    assert !(e.modes.dashingLeft && e.modes.dashingRight);
    RefillAndArmKeepHeading(e, cfg);
  }

  /** After the first four steps no dash is running when none was, or when
      the one running had expired. */
  lemma PreludeEndsExpiredDash(s: Locomotion, cfg: Tuning, x: real)
    requires !Dashing(s) || s.clocks.dashTime < 0.0
    ensures !Dashing(Prelude(s, cfg, x))
  {
    var l := FlipStep(s, x);
    assert Dashing(l) == Dashing(s) && l.clocks == s.clocks;
    var e := ExpireDash(l, cfg);
    assert !Dashing(e);
    RefillAndArmKeepHeading(e, cfg);
  }

  /** A dash that has not expired passes the first four steps untouched,
      and so does the cooldown clock. */
  lemma PreludeKeepsRunningDash(s: Locomotion, cfg: Tuning, x: real)
    requires Dashing(s) && s.clocks.dashTime >= 0.0
    ensures var r := Prelude(s, cfg, x);
      && r.modes.dashingLeft == s.modes.dashingLeft && r.modes.dashingRight == s.modes.dashingRight
      && r.clocks.dashCooldownLeft == s.clocks.dashCooldownLeft
  {
    var l := FlipStep(s, x);
    assert l.clocks == s.clocks && Dashing(l);
    var e := ExpireDash(l, cfg);
    assert e == l;
    RefillAndArmKeepHeading(e, cfg);
  }

  /** The dash steps keep the invariant and the ledge record and counters,
      never start a dash without a press after the cooldown, and only ever
      clear the crouch flag. */
  lemma DashPhaseFrame(s: Locomotion, cfg: Tuning, c: Controls, dt: real)
    ensures var r := DashPhase(s, cfg, c, dt);
      && (Consistent(s) ==> Consistent(r))
      && r.ledge == s.ledge && r.counters == s.counters
      && r.modes.facingRight == s.modes.facingRight
      && SameUnlocks(r.entity, s.entity)
      && r.entity.isMorphed == s.entity.isMorphed && (r.entity.isCrouched ==> s.entity.isCrouched)
  {
  }

  /** Dash flags after the dash steps. Without a running dash the press
      raises at most one flag; during a running dash a press the other way
      raises the second one. */
  lemma DashPhaseDash(s: Locomotion, cfg: Tuning, c: Controls, dt: real)
    ensures var r := DashPhase(s, cfg, c, dt);
      && (!Dashing(s) && !(c.dash && s.clocks.dashCooldownLeft < 0.0) ==> !Dashing(r))
      && (!Dashing(s) ==> !(r.modes.dashingLeft && r.modes.dashingRight))
      && (s.modes.dashingRight && c.dash && s.clocks.dashCooldownLeft < 0.0 && c.x < -Deadzone ==>
            r.modes.dashingLeft && r.modes.dashingRight)
      && (!(c.dash && s.clocks.dashCooldownLeft < 0.0) ==> r.modes == s.modes)
  {
  }

  // ---------------------------------------------------------------------
  // A whole tick of `Move`

  /** The state at the jump handling keeps the invariant, the ledge record,
      the jump-frame counter and the upgrades, and keeps the facing while
      hanging. */
  lemma BeforeJumpFrame(s: Locomotion, cfg: Tuning, c: Controls, dt: real)
    ensures var a := BeforeJump(s, cfg, c, dt);
      && (Consistent(s) ==> Consistent(a))
      && a.ledge == s.ledge
      && a.counters.previousJumpFrames == s.counters.previousJumpFrames
      && SameUnlocks(a.entity, s.entity)
      && (HangingToLedge(s) ==> a.modes.facingRight == s.modes.facingRight)
  {
    var p := Prelude(s, cfg, c.x);
    PreludeFrame(s, cfg, c.x);
    if HangingToLedge(s) {
      PreludeKeepsFacingWhileHanging(s, cfg, c.x);
    }
    var d := DashPhase(p, cfg, c, dt);
    DashPhaseFrame(p, cfg, c, dt);
    var a := VerticalInput(d, cfg, c.x, c.y);
    assert a == BeforeJump(s, cfg, c, dt);
  }

  /** `Move` keeps the invariant. */
  lemma MoveKeepsConsistent(s: Locomotion, cfg: Tuning, c: Controls, dt: real)
    requires Consistent(s)
    ensures Consistent(Move(s, cfg, c, dt))
  {
    BeforeJumpFrame(s, cfg, c, dt);
  }

  /** Facing never changes in a tick that starts hanging from a ledge. */
  lemma MoveKeepsFacingWhileHanging(s: Locomotion, cfg: Tuning, c: Controls, dt: real)
    requires HangingToLedge(s)
    ensures Move(s, cfg, c, dt).modes.facingRight == s.modes.facingRight
  {
    BeforeJumpFrame(s, cfg, c, dt);
    var a := BeforeJump(s, cfg, c, dt);
    if TakesLedgeJump(a, c) {
      assert SameHeading(LedgeJump(a, cfg, c.x).modes, a.modes);
    } else {
      var j := Jump(a, cfg, c.jump, dt);
      assert SameHeading(j.modes, a.modes);
      assert Run(j, c.x).modes == j.modes;
    }
  }

  /** What the jump handling and the run keep: the invariant, the heading
      and the down/up counters. */
  lemma JumpAndRunFrame(a: Locomotion, cfg: Tuning, c: Controls, dt: real)
    ensures var r := JumpAndRun(a, cfg, c, dt);
      && (Consistent(a) ==> Consistent(r))
      && SameHeading(r.modes, a.modes)
      && r.counters.previousDownFrames == a.counters.previousDownFrames
      && r.counters.previousUpFrames == a.counters.previousUpFrames
  {
    if !TakesLedgeJump(a, c) {
      var j := Jump(a, cfg, c.jump, dt);
      assert Run(j, c.x).counters == j.counters && Run(j, c.x).modes == j.modes;
    }
  }

  /** The jump handling and the run never enter the ball, can only leave
      the crouch, and spend a midair jump only from a positive count. */
  lemma JumpAndRunPosture(a: Locomotion, cfg: Tuning, c: Controls, dt: real)
    ensures var r := JumpAndRun(a, cfg, c, dt);
      && (r.counters.midairJumps == a.counters.midairJumps ||
          (r.counters.midairJumps == a.counters.midairJumps - 1 && a.counters.midairJumps > 0))
      && r.entity.isMorphed == a.entity.isMorphed && (r.entity.isCrouched ==> a.entity.isCrouched)
  {
    if !TakesLedgeJump(a, c) {
      var j := Jump(a, cfg, c.jump, dt);
      assert j.counters.midairJumps == a.counters.midairJumps ||
             (j.counters.midairJumps == a.counters.midairJumps - 1 && a.counters.midairJumps > 0);
      assert Run(j, c.x).counters == j.counters;
    }
  }

  /** The dash flags at the end of a tick are those the dash steps left. */
  lemma MoveKeepsDashFlags(s: Locomotion, cfg: Tuning, c: Controls, dt: real)
    ensures SameHeading(Move(s, cfg, c, dt).modes, DashPhase(Prelude(s, cfg, c.x), cfg, c, dt).modes)
  {
    JumpAndRunFrame(BeforeJump(s, cfg, c, dt), cfg, c, dt);
    var d := DashPhase(Prelude(s, cfg, c.x), cfg, c, dt);
    assert SameHeading(VerticalInput(d, cfg, c.x, c.y).modes, d.modes);
  }

  /** The two dash flags are never both raised by a tick in which no dash
      press overlaps a running dash. */
  lemma MoveDashExclusive(s: Locomotion, cfg: Tuning, c: Controls, dt: real)
    requires !(s.modes.dashingLeft && s.modes.dashingRight)
    requires NoDashOverlap(s, c.dash)
    ensures var r := Move(s, cfg, c, dt); !(r.modes.dashingLeft && r.modes.dashingRight)
  {
    var p := Prelude(s, cfg, c.x);
    MoveKeepsDashFlags(s, cfg, c, dt);
    DashPhaseDash(p, cfg, c, dt);
    if c.dash {
      PreludeEndsExpiredDash(s, cfg, c.x);
    } else {
      PreludeDashExclusive(s, cfg, c.x);
    }
  }

  /** Without that precondition the flags can both be raised: a press to
      the left while a dash to the right is still running. */
  lemma MoveCanRaiseBothDashFlags(s: Locomotion, cfg: Tuning, c: Controls, dt: real)
    requires s.modes.dashingRight && s.clocks.dashTime >= 0.0 && s.clocks.dashCooldownLeft < 0.0
    requires c.dash && c.x < -Deadzone
    ensures var r := Move(s, cfg, c, dt); r.modes.dashingLeft && r.modes.dashingRight
  {
    var p := Prelude(s, cfg, c.x);
    PreludeKeepsRunningDash(s, cfg, c.x);
    DashPhaseDash(p, cfg, c, dt);
    MoveKeepsDashFlags(s, cfg, c, dt);
  }

  /** A first-frame jump press while hanging, with no dash running and
      none starting this tick, reaches the ledge-jump handling with the ledge and facing it
      started with. */
  lemma LedgeJumpTaken(s: Locomotion, cfg: Tuning, c: Controls, dt: real)
    requires c.jump && !(c.dash && s.clocks.dashCooldownLeft < 0.0) && !Dashing(s)
    requires HangingToLedge(s) && s.counters.previousJumpFrames == 0
    ensures var a := BeforeJump(s, cfg, c, dt);
      && TakesLedgeJump(a, c) && Move(s, cfg, c, dt) == LedgeJump(a, cfg, c.x)
      && a.ledge == s.ledge && a.modes.facingRight == s.modes.facingRight
  {
    BeforeJumpFrame(s, cfg, c, dt);
    var p := Prelude(s, cfg, c.x);
    PreludeEndsExpiredDash(s, cfg, c.x);
    DashPhaseDash(p, cfg, c, dt);
    var d := DashPhase(p, cfg, c, dt);
    assert SameHeading(VerticalInput(d, cfg, c.x, c.y).modes, d.modes);
  }

  /** A first-frame jump press while hanging ends the tick with the jump
      frame counted. Pushing away from the wall or leaving the stick neutral
      lets go of the ledge and pauses ledge detection; pushing toward the
      wall starts the climb with the ledge flags intact. */
  lemma MoveLedgeJump(s: Locomotion, cfg: Tuning, c: Controls, dt: real)
    requires c.jump && !(c.dash && s.clocks.dashCooldownLeft < 0.0) && !Dashing(s)
    requires HangingToLedge(s) && s.counters.previousJumpFrames == 0
    ensures var r := Move(s, cfg, c, dt);
      && r.counters.previousJumpFrames == 1
      && (!InputTowardWall(s, c.x) ==>
            !HangingToLedge(r) && !r.ledge.ledgeDetected && !r.ledge.ledgeDetectedMorph &&
            !r.ledge.canDetectLedge && r.modes.isJumping)
      && (InputTowardWall(s, c.x) ==>
            r.ledge == s.ledge.(isClimbing := true) && r.body.velocity == Zero &&
            r.invokes[|r.invokes| - 1] == Invocation(FinishLedgeClimb, cfg.climbDuration))
  {
    LedgeJumpTaken(s, cfg, c, dt);
    var a := BeforeJump(s, cfg, c, dt);
    assert InputTowardWall(a, c.x) == InputTowardWall(s, c.x);
    assert InputAwayFromWall(a, c.x) == InputAwayFromWall(s, c.x);
  }

  /** With a non-negative allowance, the midair-jump count never goes
      negative through a tick. */
  lemma MoveKeepsMidairJumpsNonNegative(s: Locomotion, cfg: Tuning, c: Controls, dt: real)
    requires s.counters.midairJumps >= 0 && cfg.numberOfMidairJumps >= 0
    ensures Move(s, cfg, c, dt).counters.midairJumps >= 0
  {
    var p := Prelude(s, cfg, c.x);
    PreludeFrame(s, cfg, c.x);
    var d := DashPhase(p, cfg, c, dt);
    DashPhaseFrame(p, cfg, c, dt);
    assert VerticalInput(d, cfg, c.x, c.y).counters.midairJumps == d.counters.midairJumps;
    JumpAndRunPosture(BeforeJump(s, cfg, c, dt), cfg, c, dt);
  }

  /** A tick spends a midair jump only on the first frame of a jump press,
      out of reach of ground and wall, with the upgrade and a jump left, and
      then exactly one. */
  lemma MoveSpendsMidairJump(s: Locomotion, cfg: Tuning, c: Controls, dt: real)
    ensures var a := BeforeJump(s, cfg, c, dt); var r := Move(s, cfg, c, dt);
      r.counters.midairJumps != a.counters.midairJumps ==>
        && c.jump && !Dashing(a) && !CanJump(a)
        && a.entity.unlockedDoubleJump && s.counters.previousJumpFrames == 0
        && r.counters.midairJumps == a.counters.midairJumps - 1
  {
    BeforeJumpFrame(s, cfg, c, dt);
    var a := BeforeJump(s, cfg, c, dt);
    if !TakesLedgeJump(a, c) {
      assert Run(Jump(a, cfg, c.jump, dt), c.x).counters == Jump(a, cfg, c.jump, dt).counters;
    }
  }

  /** With the jump button up, or a dash running at the jump handling, the
      tick ends with no jump and the jump-frame counter reset. */
  lemma MoveJumpReleased(s: Locomotion, cfg: Tuning, c: Controls, dt: real)
    requires !c.jump || Dashing(BeforeJump(s, cfg, c, dt))
    ensures var r := Move(s, cfg, c, dt); !r.modes.isJumping && r.counters.previousJumpFrames == 0
  {
    var a := BeforeJump(s, cfg, c, dt);
    var j := Jump(a, cfg, c.jump, dt);
    assert !j.modes.isJumping && j.counters.previousJumpFrames == 0;
    assert Run(j, c.x).modes == j.modes && Run(j, c.x).counters == j.counters;
  }

  /** A neutral vertical input (or up with a horizontal push) ends the tick
      with both down and up frame counters at zero. */
  lemma MoveNeutralStickResetsCounters(s: Locomotion, cfg: Tuning, c: Controls, dt: real)
    requires c.y == 0.0 || (c.y > 0.0 && Abs(c.x) > Deadzone)
    ensures var r := Move(s, cfg, c, dt);
      r.counters.previousDownFrames == 0 && r.counters.previousUpFrames == 0
  {
    JumpAndRunFrame(BeforeJump(s, cfg, c, dt), cfg, c, dt);
  }

  /** A tick curls the player into the ball only on the first frame of a
      down hold, and only with the morph ball unlocked. */
  lemma MoveMorphsOnFirstDownFrame(s: Locomotion, cfg: Tuning, c: Controls, dt: real)
    ensures var r := Move(s, cfg, c, dt);
      r.entity.isMorphed && !s.entity.isMorphed ==>
        c.y < 0.0 && r.counters.previousDownFrames == 1 && s.entity.unlockedMorphBall
  {
    var p := Prelude(s, cfg, c.x);
    PreludeFrame(s, cfg, c.x);
    DashPhaseFrame(p, cfg, c, dt);
    JumpAndRunFrame(BeforeJump(s, cfg, c, dt), cfg, c, dt);
    JumpAndRunPosture(BeforeJump(s, cfg, c, dt), cfg, c, dt);
  }

  /** A tick crouches the player only on the first frame of a down or up
      hold. */
  lemma MoveCrouchesOnFirstFrame(s: Locomotion, cfg: Tuning, c: Controls, dt: real)
    ensures var r := Move(s, cfg, c, dt);
      r.entity.isCrouched && !s.entity.isCrouched ==>
        r.counters.previousDownFrames == 1 || r.counters.previousUpFrames == 1
  {
    var p := Prelude(s, cfg, c.x);
    PreludeFrame(s, cfg, c.x);
    DashPhaseFrame(p, cfg, c, dt);
    JumpAndRunFrame(BeforeJump(s, cfg, c, dt), cfg, c, dt);
    JumpAndRunPosture(BeforeJump(s, cfg, c, dt), cfg, c, dt);
  }

  // ---------------------------------------------------------------------
  // Frames, contacts, callbacks and whole runs

  /** A frame of `Update` keeps the invariant. */
  lemma FrameUpdateKeepsConsistent(s: Locomotion, cfg: Tuning, rays: RayHits, dt: real)
    requires Consistent(s)
    ensures Consistent(FrameUpdate(s, cfg, rays, dt))
  {
    var l := CheckLedgeClimb(CheckSurroundings(s, rays), cfg);
    assert Consistent(l);
  }

  /** Every scheduled callback keeps the invariant. */
  lemma FireKeepsConsistent(s: Locomotion, cfg: Tuning, cb: Callback)
    requires Consistent(s)
    ensures Consistent(Fire(s, cfg, cb))
  {
    if cb == FinishLedgeClimb {
      assert Consistent(FinishClimb(s, cfg));
    }
  }

  /** Every event keeps the invariant. */
  lemma ApplyKeepsConsistent(s: Locomotion, cfg: Tuning, e: PlayerEvent)
    requires Consistent(s)
    ensures Consistent(Apply(s, cfg, e))
  {
    match e
    case FixedTick(c, dt) => MoveKeepsConsistent(s, cfg, c, dt);
    case Frame(rays, dt) => FrameUpdateKeepsConsistent(s, cfg, rays, dt);
    case Touch(sensor, started) =>
    case Invoked(cb) => FireKeepsConsistent(s, cfg, cb);
    case JumpBuff(t) =>
    case MoveBuff(t) =>
  }

  /** Any run of events keeps the invariant. */
  lemma {:induction false} ReplayKeepsConsistent(s: Locomotion, cfg: Tuning, es: seq<PlayerEvent>)
    requires Consistent(s)
    ensures Consistent(Replay(s, cfg, es))
    decreases |es|
  {
    if es != [] {
      ApplyKeepsConsistent(s, cfg, es[0]);
      ReplayKeepsConsistent(Apply(s, cfg, es[0]), cfg, es[1..]);
    }
  }

  /** So every state the controller reaches from `Start` is consistent: the
      ledge and morph-ledge classifications exclude each other, the two hang
      flags exclude each other, crouched and morphed exclude each other, and
      the input-frame counters are never negative. */
  lemma ReachableIsConsistent(cfg: Tuning, unlockedDoubleJump: bool, unlockedMorphBall: bool, position: Vec2,
                              es: seq<PlayerEvent>)
    ensures var s := Replay(Started(cfg, unlockedDoubleJump, unlockedMorphBall, position), cfg, es);
      && !(s.ledge.ledgeDetected && s.ledge.ledgeDetectedMorph)
      && !(s.ledge.canClimbLedge && s.ledge.canClimbLedgeMorph)
      && !(s.entity.isCrouched && s.entity.isMorphed)
      && s.counters.previousDownFrames >= 0 && s.counters.previousUpFrames >= 0
      && s.counters.previousJumpFrames >= 0
  {
    ReplayKeepsConsistent(Started(cfg, unlockedDoubleJump, unlockedMorphBall, position), cfg, es);
  }

  // ---------------------------------------------------------------------
  // The jump buff

  /** As written, the jump buff does not depend on the jump timer at all:
      two states with the same move-buff timer get the same jump timer. */
  lemma JumpBuffIgnoresJumpTimer(s1: Locomotion, s2: Locomotion, cfg: Tuning, time: real)
    requires s1.clocks.currentMoveTimer == s2.clocks.currentMoveTimer
    ensures IncreaseJumpTimer(s1, cfg, time).clocks.currentJumpTimer ==
            IncreaseJumpTimer(s2, cfg, time).clocks.currentJumpTimer
  {
  }

  /** The input that shows it: five seconds of jump buff left, no speed
      buff, one second more asked for under a cap of ten. The jump timer
      drops to one second instead of rising to six. */
  lemma JumpBuffCounterexample(s: Locomotion, cfg: Tuning)
    requires s.clocks.currentJumpTimer == 5.0 && s.clocks.currentMoveTimer == 0.0
    requires cfg.maxJumpBuffTime == 10.0
    ensures IncreaseJumpTimer(s, cfg, 1.0).clocks.currentJumpTimer == 1.0
    ensures IntendedIncreaseJumpTimer(s, cfg, 1.0).clocks.currentJumpTimer == 6.0
  {
  }

  /** What the intended jump buff keeps that the code as written loses:
      with the time left on a running jump buff and more time added, the
      new timer is the old one plus that time, capped, so it never falls
      below what was left. */
  lemma IntendedJumpBuffKeepsRemainder(s: Locomotion, cfg: Tuning, time: real)
    requires 0.0 <= time && 0.0 <= s.clocks.currentJumpTimer <= cfg.maxJumpBuffTime
    ensures var r := IntendedIncreaseJumpTimer(s, cfg, time).clocks.currentJumpTimer;
      && r == (if s.clocks.currentJumpTimer + time > cfg.maxJumpBuffTime then cfg.maxJumpBuffTime
               else s.clocks.currentJumpTimer + time)
      && s.clocks.currentJumpTimer <= r
  {
  }
}

=== FILE: PlayerMovementSpec.dfy ===
/** The player's locomotion controller as values: one snapshot of every field
    the controller owns (plus the player-entity flags, rigid-body velocity and
    constraints, and transform position it writes), and one function per step
    of the per-tick `Move`, per frame `Update`, per contact edge and per
    `Invoke` callback. The `PlayerMovement` class is proved to follow these
    functions; the lemmas about them are in `PlayerMovementLemmas`. */
module PlayerMovementSpec {
  import opened Engine

  /** The methods the controller schedules with `Invoke`. */
  datatype Callback = StopWallJump | ReCheckLedges | FinishLedgeClimb | RegainControl | ResetMidAirMorphWindow

  /** The inspector settings, plus the two buff caps read from the player entity. */
  datatype Tuning = Tuning(
    normalJumpForce: real, boostedJumpForce: real, jumpTime: real,
    normalMoveSpeed: real, boostedMoveSpeed: real,
    numberOfMidairJumps: int, somersaultThreshold: real,
    dashCooldown: real, dashSpeed: real, startDashTime: real,
    wallJumpWindow: real, detectionRange: real,
    ledgeOffsetX1: real, ledgeOffsetY1: real, ledgeOffsetX2: real, ledgeOffsetY2: real,
    ledgeDropWindow: real, ledgeFreezeControlsWindow: real, midAirMorphWindow: real,
    climbDuration: real,
    maxJumpBuffTime: real, maxSpeedBuffTime: real)

  /** The arguments of one `Move` call. */
  datatype Controls = Controls(x: real, y: real, jump: bool, dash: bool)

  /** What the three ledge rays cast in the facing direction report this
      frame, and where the wall ray starts. */
  datatype RayHits = RayHits(wall: bool, ledgeBottom: bool, ledgeTop: bool, wallRayOrigin: Vec2)

  /** Ledge detection and hanging. */
  datatype Ledge = Ledge(
    canClimbLedge: bool, canClimbLedgeMorph: bool, canDetectLedge: bool,
    ledgeDetected: bool, ledgeDetectedMorph: bool,
    detectedWall: bool, detectedLedgeBottom: bool, detectedLedgeTop: bool,
    isClimbing: bool, ledgePosBottom: Vec2, ledgePos1: Vec2, ledgePos2: Vec2)

  /** Movement-mode flags. */
  datatype Modes = Modes(
    canWallJump: bool, dashingLeft: bool, dashingRight: bool, facingRight: bool,
    isGrounded: bool, isHuggingWallLeft: bool, isHuggingWallRight: bool,
    isJumping: bool, isSomersaulting: bool, fakeMidairCrouch: bool)

  /** Buff timers, the values they select, and the dash and jump clocks. */
  datatype Clocks = Clocks(
    currentJumpForce: real, currentJumpTimer: real, currentMoveSpeed: real, currentMoveTimer: real,
    dashCooldownLeft: real, dashTime: real, jumpTimeCounter: real)

  /** Consecutive-input-frame counters and the midair jumps left. */
  datatype Counters = Counters(previousDownFrames: int, previousJumpFrames: int, previousUpFrames: int, midairJumps: int)

  /** What the controller writes to the rigid body and the transform. */
  datatype Body = Body(velocity: Vec2, constraints: Constraints, position: Vec2)

  /** The flags of the player entity the controller reads and writes. */
  datatype Entity = Entity(isCrouched: bool, isMorphed: bool, unlockedDoubleJump: bool, unlockedMorphBall: bool, frozeControls: bool)

  /** Everything the controller reads and writes, and every `Invoke` made so
      far, oldest first. */
  datatype Locomotion = Locomotion(
    ledge: Ledge, modes: Modes, clocks: Clocks, counters: Counters, body: Body, entity: Entity,
    invokes: seq<Invocation<Callback>>)

  /** Horizontal input at or below this magnitude counts as neutral. */
  const Deadzone: real := 0.1

  predicate Dashing(s: Locomotion) {
    s.modes.dashingLeft || s.modes.dashingRight
  }

  predicate HangingToLedge(s: Locomotion) {
    s.ledge.canClimbLedge || s.ledge.canClimbLedgeMorph
  }

  /** The upgrades the player has unlocked agree. */
  predicate SameUnlocks(a: Entity, b: Entity) {
    a.unlockedDoubleJump == b.unlockedDoubleJump && a.unlockedMorphBall == b.unlockedMorphBall
  }

  /** Facing and dash direction agree. */
  predicate SameHeading(a: Modes, b: Modes) {
    a.facingRight == b.facingRight && a.dashingLeft == b.dashingLeft && a.dashingRight == b.dashingRight
  }

  /** The two ledge classifications exclude each other, and so do the two
      hang flags. */
  predicate LedgeConsistent(l: Ledge) {
    !(l.ledgeDetected && l.ledgeDetectedMorph) && !(l.canClimbLedge && l.canClimbLedgeMorph)
  }

  /** Crouched and morphed exclude each other. */
  predicate PostureConsistent(e: Entity) {
    !(e.isCrouched && e.isMorphed)
  }

  /** The input-frame counters never go negative. */
  predicate CountersConsistent(n: Counters) {
    n.previousDownFrames >= 0 && n.previousUpFrames >= 0 && n.previousJumpFrames >= 0
  }

  /** The invariant every operation keeps. */
  predicate Consistent(s: Locomotion) {
    LedgeConsistent(s.ledge) && PostureConsistent(s.entity) && CountersConsistent(s.counters)
  }

  /** The state right after `Start`: field defaults, then `Start`'s assignments. */
  function Started(cfg: Tuning, unlockedDoubleJump: bool, unlockedMorphBall: bool, position: Vec2): (s: Locomotion)
    ensures Consistent(s)
    ensures s.modes.facingRight && s.ledge.canDetectLedge && !Dashing(s) && !HangingToLedge(s)
    ensures s.counters.midairJumps == cfg.numberOfMidairJumps && s.clocks.dashTime == cfg.startDashTime
    ensures s.clocks.dashCooldownLeft == 0.0 && s.body.constraints == FreezeRotation
  {
    Locomotion(
      Ledge(false, false, true, false, false, false, false, false, false, Zero, Zero, Zero),
      Modes(false, false, false, true, false, false, false, false, false, false),
      Clocks(0.0, 0.0, 0.0, 0.0, 0.0, cfg.startDashTime, 0.0),
      Counters(0, 0, 0, cfg.numberOfMidairJumps),
      Body(Zero, FreezeRotation, position),
      Entity(false, false, unlockedDoubleJump, unlockedMorphBall, false),
      [])
  }

  // ---------------------------------------------------------------------
  // Predicates the controller consults

  /** Facing turns when the input (or an ongoing dash) points away from it,
      never while hanging from a ledge. */
  function HasToFlip(s: Locomotion, x: real): (r: bool)
    ensures HangingToLedge(s) ==> !r
    ensures !HangingToLedge(s) && !Dashing(s) ==>
      (r <==> (s.modes.facingRight && x < 0.0) || (!s.modes.facingRight && x > 0.0))
    ensures !HangingToLedge(s) && (if s.modes.facingRight then s.modes.dashingLeft else s.modes.dashingRight) ==> r
  {
    var m := s.modes;
    !s.ledge.canClimbLedgeMorph && !s.ledge.canClimbLedge &&
    ((m.facingRight && (x < 0.0 || m.dashingLeft)) || (!m.facingRight && (x > 0.0 || m.dashingRight)))
  }

  /** Somersaulting into the wall on the side the player faces. */
  predicate CanWallJump(s: Locomotion) {
    var m := s.modes;
    m.isSomersaulting && ((m.facingRight && m.isHuggingWallRight) || (!m.facingRight && m.isHuggingWallLeft))
  }

  /** Armed, with the wall at the player's back. */
  predicate ReadyToWallJump(s: Locomotion) {
    var m := s.modes;
    m.canWallJump && ((m.facingRight && m.isHuggingWallLeft) || (!m.facingRight && m.isHuggingWallRight))
  }

  predicate CanJump(s: Locomotion) {
    s.modes.isGrounded || ReadyToWallJump(s)
  }

  predicate CanCrouch(s: Locomotion) {
    s.modes.isGrounded && !s.entity.isCrouched && !Dashing(s) && !HangingToLedge(s)
  }

  /** Crouched and still on the ground, or inside the midair morph window;
      and not already a ball, dashing or hanging. */
  function CanMorph(s: Locomotion, x: real): (r: bool)
    ensures r ==> !s.entity.isMorphed && !Dashing(s) && !HangingToLedge(s)
    ensures r && s.modes.isGrounded ==> s.entity.isCrouched && Abs(x) <= Deadzone
    ensures r && !s.modes.isGrounded ==> s.modes.fakeMidairCrouch
  {
    ((s.modes.isGrounded && s.entity.isCrouched && Abs(x) <= Deadzone) ||
     (!s.modes.isGrounded && s.modes.fakeMidairCrouch)) &&
    !s.entity.isMorphed && !Dashing(s) && !HangingToLedge(s)
  }

  // ---------------------------------------------------------------------
  // Posture changes

  function Crouch(s: Locomotion): (r: Locomotion)
    ensures Consistent(s) ==> Consistent(r)
    ensures r.entity.isCrouched && !r.entity.isMorphed
    ensures r == s.(entity := r.entity) && r.entity == s.entity.(isCrouched := true, isMorphed := false)
  {
    s.(entity := s.entity.(isCrouched := true, isMorphed := false))
  }

  function Uncrouch(s: Locomotion): (r: Locomotion)
    ensures Consistent(s) ==> Consistent(r)
    ensures !r.entity.isCrouched
    ensures r == s.(entity := s.entity.(isCrouched := false))
  {
    s.(entity := s.entity.(isCrouched := false))
  }

  /** Curling into the ball needs the upgrade; without it nothing changes. */
  function Morph(s: Locomotion): (r: Locomotion)
    ensures Consistent(s) ==> Consistent(r)
    ensures !s.entity.unlockedMorphBall ==> r == s
    ensures s.entity.unlockedMorphBall ==>
      r.entity.isMorphed && !r.entity.isCrouched && !r.modes.fakeMidairCrouch
    ensures r.ledge == s.ledge && r.clocks == s.clocks && r.counters == s.counters && r.body == s.body &&
            r.invokes == s.invokes
    ensures r.modes == s.modes.(fakeMidairCrouch := r.modes.fakeMidairCrouch)
    ensures r.entity == s.entity.(isCrouched := r.entity.isCrouched, isMorphed := r.entity.isMorphed)
  {
    if s.entity.unlockedMorphBall then
      s.(modes := s.modes.(fakeMidairCrouch := false), entity := s.entity.(isCrouched := false, isMorphed := true))
    else s
  }

  function Schedule(s: Locomotion, cb: Callback, delay: real): (r: Locomotion)
    ensures Consistent(s) ==> Consistent(r)
    ensures r.invokes == s.invokes + [Invocation(cb, delay)]
    ensures r == s.(invokes := r.invokes)
  {
    s.(invokes := s.invokes + [Invocation(cb, delay)])
  }

  // ---------------------------------------------------------------------
  // The steps of `Move`, in the order it takes them

  function FlipStep(s: Locomotion, x: real): (r: Locomotion)
    ensures Consistent(s) ==> Consistent(r)
    ensures r.modes.facingRight == (s.modes.facingRight != HasToFlip(s, x))
    ensures r == s.(modes := s.modes.(facingRight := r.modes.facingRight))
  {
    if HasToFlip(s, x) then s.(modes := s.modes.(facingRight := !s.modes.facingRight)) else s
  }

  /** An expired dash ends: both directions clear, the dash clock rewinds
      and the cooldown starts. */
  function ExpireDash(s: Locomotion, cfg: Tuning): (r: Locomotion)
    ensures Consistent(s) ==> Consistent(r)
    ensures Dashing(s) && s.clocks.dashTime < 0.0 ==>
      !Dashing(r) && r.clocks.dashTime == cfg.startDashTime && r.clocks.dashCooldownLeft == cfg.dashCooldown &&
      r.body.constraints == FreezeRotation
    ensures !(Dashing(s) && s.clocks.dashTime < 0.0) ==> r == s
    ensures r.ledge == s.ledge && r.counters == s.counters && r.entity == s.entity && r.invokes == s.invokes
  {
    if Dashing(s) && s.clocks.dashTime < 0.0 then
      s.(modes := s.modes.(dashingRight := false, dashingLeft := false),
         clocks := s.clocks.(dashTime := cfg.startDashTime, dashCooldownLeft := cfg.dashCooldown),
         body := s.body.(constraints := FreezeRotation))
    else s
  }

  function RefillMidairJumps(s: Locomotion, cfg: Tuning): (r: Locomotion)
    ensures Consistent(s) ==> Consistent(r)
    ensures CanJump(s) ==> r.counters.midairJumps == cfg.numberOfMidairJumps
    ensures !CanJump(s) ==> r == s
    ensures r == s.(counters := s.counters.(midairJumps := r.counters.midairJumps))
  {
    if CanJump(s) then s.(counters := s.counters.(midairJumps := cfg.numberOfMidairJumps)) else s
  }

  /** Arms the wall jump while it is possible; once it is not, asks for the
      delayed disarm (again on every tick until the disarm lands). */
  function ArmWallJump(s: Locomotion, cfg: Tuning): (r: Locomotion)
    ensures Consistent(s) ==> Consistent(r)
    ensures !HangingToLedge(s) && CanWallJump(s) ==> r == s.(modes := s.modes.(canWallJump := true))
    ensures r.invokes != s.invokes ==>
      !HangingToLedge(s) && !CanWallJump(s) && s.modes.canWallJump &&
      r == Schedule(s, StopWallJump, cfg.wallJumpWindow)
    ensures !HangingToLedge(s) && !CanWallJump(s) && s.modes.canWallJump ==>
      r == Schedule(s, StopWallJump, cfg.wallJumpWindow)
    ensures !HangingToLedge(s) && !CanWallJump(s) && !s.modes.canWallJump ==> r == s
    ensures HangingToLedge(s) ==> r == s
  {
    if !HangingToLedge(s) then
      if CanWallJump(s) then s.(modes := s.modes.(canWallJump := true))
      else if s.modes.canWallJump then Schedule(s, StopWallJump, cfg.wallJumpWindow)
      else s
    else s
  }

  /** A dash press once the cooldown has run out: leaves a crouch and starts a
      dash in the direction of a non-neutral input. There is no check for a
      dash already under way. */
  function StartDash(s: Locomotion, x: real, dash: bool): (r: Locomotion)
    ensures Consistent(s) ==> Consistent(r)
    ensures !dash || s.clocks.dashCooldownLeft >= 0.0 ==> r == s
    ensures Abs(x) <= Deadzone ==> r.modes == s.modes
    ensures r.modes.dashingRight != s.modes.dashingRight ==>
      dash && s.clocks.dashCooldownLeft < 0.0 && x > Deadzone && r.modes.dashingRight
    ensures r.modes.dashingLeft != s.modes.dashingLeft ==>
      dash && s.clocks.dashCooldownLeft < 0.0 && x < -Deadzone && r.modes.dashingLeft
    ensures !(r.modes.dashingLeft != s.modes.dashingLeft && r.modes.dashingRight != s.modes.dashingRight)
    ensures r.ledge == s.ledge && r.clocks == s.clocks && r.counters == s.counters && r.invokes == s.invokes
    ensures r.entity == s.entity || r.entity == s.entity.(isCrouched := false)
    ensures dash && s.clocks.dashCooldownLeft < 0.0 ==>
      r.entity == s.entity.(isCrouched := false) &&
      (x > Deadzone ==> r.modes == s.modes.(dashingRight := true) && r.body.constraints == FreezeRotationAndPositionY) &&
      (x < -Deadzone ==> r.modes == s.modes.(dashingLeft := true) && r.body.constraints == FreezeRotationAndPositionY)
  {
    if dash && s.clocks.dashCooldownLeft < 0.0 then
      var u := if s.entity.isCrouched then Uncrouch(s) else s;
      if Abs(x) <= Deadzone then u
      else if x > 0.0 then
        u.(modes := u.modes.(dashingRight := true), body := u.body.(constraints := FreezeRotationAndPositionY))
      else if x < 0.0 then
        u.(modes := u.modes.(dashingLeft := true), body := u.body.(constraints := FreezeRotationAndPositionY))
      else u
    else s
  }

  /** While dashing: dash velocity in the dash direction (right wins when
      both are set) and the dash clock runs down. */
  function TickDash(s: Locomotion, cfg: Tuning, dt: real): (r: Locomotion)
    ensures Consistent(s) ==> Consistent(r)
    ensures s.modes.dashingRight ==>
      r.body.velocity == Vec2(cfg.dashSpeed, 0.0) && r.clocks.dashTime == s.clocks.dashTime - dt
    ensures !s.modes.dashingRight && s.modes.dashingLeft ==>
      r.body.velocity == Vec2(-cfg.dashSpeed, 0.0) && r.clocks.dashTime == s.clocks.dashTime - dt
    ensures !Dashing(s) ==> r == s
    ensures r.ledge == s.ledge && r.modes == s.modes && r.counters == s.counters && r.entity == s.entity &&
            r.invokes == s.invokes
  {
    if s.modes.dashingRight then
      s.(clocks := s.clocks.(dashTime := s.clocks.dashTime - dt), body := s.body.(velocity := Vec2(cfg.dashSpeed, 0.0)))
    else if s.modes.dashingLeft then
      s.(clocks := s.clocks.(dashTime := s.clocks.dashTime - dt), body := s.body.(velocity := Vec2(-cfg.dashSpeed, 0.0)))
    else s
  }

  /** The first frame of a down hold: crouch on the ground, open the midair
      morph window in the air, or curl into the ball when that is allowed.
      Later frames of the hold do nothing. */
  function DownAction(s: Locomotion, cfg: Tuning, x: real): (r: Locomotion)
    ensures SameUnlocks(r.entity, s.entity)
    ensures Consistent(s) ==> Consistent(r)
    ensures s.counters.previousDownFrames != 1 ==> r == s
    ensures r.entity.isMorphed && !s.entity.isMorphed ==> s.entity.unlockedMorphBall && CanMorph(s, x)
    ensures r.entity.isCrouched && !s.entity.isCrouched ==> CanCrouch(s) && Abs(x) <= Deadzone
    ensures r.ledge == s.ledge && r.clocks == s.clocks && r.counters == s.counters && r.body == s.body
    ensures SameHeading(r.modes, s.modes) && r.modes.isJumping == s.modes.isJumping
    ensures s.counters.previousDownFrames == 1 && !s.modes.isGrounded && !CanMorph(s, x) ==>
      r == Schedule(s.(modes := s.modes.(fakeMidairCrouch := true)), ResetMidAirMorphWindow, cfg.midAirMorphWindow)
    ensures r.invokes != s.invokes ==>
      r.invokes == s.invokes + [Invocation(ResetMidAirMorphWindow, cfg.midAirMorphWindow)] && r.modes.fakeMidairCrouch
    ensures s.counters.previousDownFrames == 1 && CanCrouch(s) && Abs(x) <= Deadzone ==> r == Crouch(s)
    ensures s.counters.previousDownFrames == 1 && !(CanCrouch(s) && Abs(x) <= Deadzone) && CanMorph(s, x) ==>
      r == Morph(s)
  {
    if s.counters.previousDownFrames == 1 && CanCrouch(s) && Abs(x) <= Deadzone then Crouch(s)
    else if s.counters.previousDownFrames == 1 && !s.modes.isGrounded && !CanMorph(s, x) then
      Schedule(s.(modes := s.modes.(fakeMidairCrouch := true)), ResetMidAirMorphWindow, cfg.midAirMorphWindow)
    else if s.counters.previousDownFrames == 1 && CanMorph(s, x) then Morph(s)
    else s
  }

  /** The first frame of an up hold: stand up from a crouch; out of the ball,
      crouch on the ground or only clear the crouch flag in the air. */
  function UpAction(s: Locomotion): (r: Locomotion)
    ensures SameUnlocks(r.entity, s.entity)
    ensures Consistent(s) ==> Consistent(r)
    ensures s.counters.previousUpFrames != 1 ==> r == s
    ensures r.entity.isMorphed == s.entity.isMorphed || (s.modes.isGrounded && !s.entity.isCrouched && !r.entity.isMorphed)
    ensures r.entity.isCrouched ==> s.entity.isMorphed || s.entity.isCrouched
    ensures r == s.(entity := r.entity)
    ensures s.counters.previousUpFrames == 1 && s.entity.isCrouched ==> r == Uncrouch(s)
    ensures s.counters.previousUpFrames == 1 && !s.entity.isCrouched && s.entity.isMorphed ==>
      r == if s.modes.isGrounded then Crouch(s) else Uncrouch(s)
  {
    if s.counters.previousUpFrames == 1 && s.entity.isCrouched then Uncrouch(s)
    else if s.counters.previousUpFrames == 1 && s.entity.isMorphed then
      if s.modes.isGrounded then Crouch(s) else Uncrouch(s)
    else s
  }

  /** Down and up input. Each counts the frames of its hold and acts only on
      the first; a neutral stick resets both frame counters. */
  function VerticalInput(s: Locomotion, cfg: Tuning, x: real, y: real): (r: Locomotion)
    ensures SameUnlocks(r.entity, s.entity)
    ensures Consistent(s) ==> Consistent(r)
    ensures (y == 0.0 || (y > 0.0 && Abs(x) > Deadzone)) ==>
      r == s.(counters := s.counters.(previousDownFrames := 0, previousUpFrames := 0))
    ensures y < 0.0 ==>
      r.counters == s.counters.(previousDownFrames := s.counters.previousDownFrames + 1)
    ensures y > 0.0 && Abs(x) <= Deadzone ==>
      r.counters == s.counters.(previousUpFrames := s.counters.previousUpFrames + 1)
    ensures r.entity != s.entity || r.modes != s.modes ==>
      r.counters.previousDownFrames == 1 || r.counters.previousUpFrames == 1
    ensures r.entity.isMorphed && !s.entity.isMorphed ==>
      y < 0.0 && r.counters.previousDownFrames == 1 && s.entity.unlockedMorphBall
    ensures r.ledge == s.ledge && r.clocks == s.clocks && r.body == s.body
    ensures SameHeading(r.modes, s.modes) && r.modes.isJumping == s.modes.isJumping
    ensures y < 0.0 && s.counters.previousDownFrames == 0 && CanCrouch(s) && Abs(x) <= Deadzone ==>
      r.entity == Crouch(s).entity && r.modes == s.modes && r.invokes == s.invokes
    ensures y < 0.0 && s.counters.previousDownFrames == 0 && !(CanCrouch(s) && Abs(x) <= Deadzone) && CanMorph(s, x) ==>
      r.entity == Morph(s).entity && r.modes == Morph(s).modes && r.invokes == s.invokes
    ensures y > 0.0 && Abs(x) <= Deadzone && s.counters.previousUpFrames == 0 && s.entity.isCrouched ==>
      r.entity == Uncrouch(s).entity && r.modes == s.modes
    ensures y > 0.0 && Abs(x) <= Deadzone && s.counters.previousUpFrames == 0 && !s.entity.isCrouched &&
            s.entity.isMorphed ==>
      r.entity == (if s.modes.isGrounded then Crouch(s) else Uncrouch(s)).entity && r.modes == s.modes
  {
    if y < 0.0 then
      DownAction(s.(counters := s.counters.(previousDownFrames := s.counters.previousDownFrames + 1)), cfg, x)
    else if y > 0.0 && Abs(x) <= Deadzone then
      UpAction(s.(counters := s.counters.(previousUpFrames := s.counters.previousUpFrames + 1)))
    else s.(counters := s.counters.(previousDownFrames := 0, previousUpFrames := 0))
  }

  /** No dash is under way that a new press could overlap: either none is
      running, the one running has expired, or the button is not pressed. */
  predicate NoDashOverlap(s: Locomotion, dash: bool) {
    !dash || !Dashing(s) || s.clocks.dashTime < 0.0
  }

  /** The first four steps of `Move`: flip, dash expiry, midair-jump refill
      and wall-jump arming. */
  function Prelude(s: Locomotion, cfg: Tuning, x: real): Locomotion {
    ArmWallJump(RefillMidairJumps(ExpireDash(FlipStep(s, x), cfg), cfg), cfg)
  }

  /** The dash steps of `Move`: a press may start a dash, and a running dash
      sets the velocity and runs its clock down. */
  function DashPhase(s: Locomotion, cfg: Tuning, c: Controls, dt: real): Locomotion {
    TickDash(StartDash(s, c.x, c.dash), cfg, dt)
  }

  /** The state in which `Move` reaches its jump handling. */
  function BeforeJump(s: Locomotion, cfg: Tuning, c: Controls, dt: real): Locomotion {
    VerticalInput(DashPhase(Prelude(s, cfg, c.x), cfg, c, dt), cfg, c.x, c.y)
  }

  /** The first jump frame while hanging is handled on its own and ends the tick. */
  predicate TakesLedgeJump(s: Locomotion, c: Controls) {
    c.jump && !Dashing(s) && HangingToLedge(s) && s.counters.previousJumpFrames == 0
  }

  predicate InputAwayFromWall(s: Locomotion, x: real) {
    (s.modes.facingRight && x < 0.0) || (!s.modes.facingRight && x > 0.0)
  }

  predicate InputTowardWall(s: Locomotion, x: real) {
    (s.modes.facingRight && x > 0.0) || (!s.modes.facingRight && x < 0.0)
  }

  /** The hang ends and ledge detection pauses until `ReCheckLedges`. */
  function DropLedge(s: Locomotion, cfg: Tuning): (r: Locomotion)
    ensures Consistent(s) ==> Consistent(r)
    ensures !HangingToLedge(r) && !r.ledge.ledgeDetected && !r.ledge.ledgeDetectedMorph && !r.ledge.canDetectLedge
    ensures r.invokes == s.invokes + [Invocation(ReCheckLedges, cfg.ledgeDropWindow)]
    ensures r.modes == s.modes && r.clocks == s.clocks && r.counters == s.counters && r.body == s.body &&
            r.entity == s.entity
  {
    var t := Schedule(s, ReCheckLedges, cfg.ledgeDropWindow);
    t.(ledge := t.ledge.(canDetectLedge := false, canClimbLedge := false, canClimbLedgeMorph := false,
                         ledgeDetected := false, ledgeDetectedMorph := false))
  }

  /** Jump pressed while hanging: away from the wall jumps off, toward it
      starts the timed climb, neutral lets go in place. */
  function LedgeJump(s: Locomotion, cfg: Tuning, x: real): (r: Locomotion)
    ensures SameHeading(r.modes, s.modes)
    ensures Consistent(s) ==> Consistent(r)
    ensures r.counters == s.counters.(previousJumpFrames := s.counters.previousJumpFrames + 1)
    ensures InputAwayFromWall(s, x) ==>
      r.ledge == DropLedge(s, cfg).ledge && r.invokes == DropLedge(s, cfg).invokes &&
      r.modes == s.modes.(isJumping := true) &&
      r.clocks == s.clocks.(jumpTimeCounter := cfg.jumpTime) &&
      r.body == s.body.(velocity := Vec2(0.0, s.clocks.currentJumpForce))
    ensures InputTowardWall(s, x) ==>
      r.ledge == s.ledge.(isClimbing := true) && r.modes == s.modes && r.clocks == s.clocks &&
      r.body == s.body.(velocity := Zero) &&
      r.invokes == s.invokes + [Invocation(FinishLedgeClimb, cfg.climbDuration)]
    ensures !InputAwayFromWall(s, x) && !InputTowardWall(s, x) ==>
      r.ledge == DropLedge(s, cfg).ledge && r.invokes == DropLedge(s, cfg).invokes &&
      r.modes == s.modes.(isJumping := true) &&
      r.clocks == s.clocks.(jumpTimeCounter := 0.0) &&
      r.body == s.body.(velocity := Zero)
    ensures r.entity == s.entity
  {
    var t :=
      if InputAwayFromWall(s, x) then
        var d := DropLedge(s, cfg);
        d.(modes := d.modes.(isJumping := true), clocks := d.clocks.(jumpTimeCounter := cfg.jumpTime),
           body := d.body.(velocity := Vec2(0.0, d.clocks.currentJumpForce)))
      else if InputTowardWall(s, x) then
        Schedule(s.(body := s.body.(velocity := Zero), ledge := s.ledge.(isClimbing := true)),
                 FinishLedgeClimb, cfg.climbDuration)
      else
        var d := DropLedge(s, cfg);
        d.(modes := d.modes.(isJumping := true), clocks := d.clocks.(jumpTimeCounter := 0.0),
           body := d.body.(velocity := Zero));
    t.(counters := t.counters.(previousJumpFrames := t.counters.previousJumpFrames + 1))
  }

  /** A first-frame press out of reach of ground and wall, with the
      double-jump upgrade and a midair jump left. */
  predicate CanMidairJump(s: Locomotion) {
    s.counters.previousJumpFrames == 0 && !CanJump(s) && s.entity.unlockedDoubleJump && s.counters.midairJumps > 0
  }

  /** The press starts a jump: a ground or wall jump, or a midair one. */
  predicate StartsJump(s: Locomotion) {
    (CanJump(s) && s.counters.previousJumpFrames == 0) || CanMidairJump(s)
  }

  /** A later frame of a held jump: the rise holds the jump force while
      the jump time lasts, and the jump ends once it has run out. The jump
      height is set by how long the button is held and nothing else. */
  function KeepJumping(s: Locomotion, dt: real): (r: Locomotion)
    ensures s.modes.isJumping && s.clocks.jumpTimeCounter > 0.0 ==>
      r.modes == s.modes && r.counters == s.counters && r.entity == s.entity &&
      r.body == s.body.(velocity := Vec2(0.0, s.clocks.currentJumpForce)) &&
      r.clocks == s.clocks.(jumpTimeCounter := s.clocks.jumpTimeCounter - dt)
    ensures s.modes.isJumping && s.clocks.jumpTimeCounter <= 0.0 ==>
      r.modes == s.modes.(isJumping := false) && r.counters == s.counters && r.entity == s.entity &&
      r.body == s.body && r.clocks == s.clocks
    ensures !s.modes.isJumping ==> r == s
    ensures r.ledge == s.ledge && r.invokes == s.invokes
  {
    if s.modes.isJumping then
      if s.clocks.jumpTimeCounter > 0.0 then
        s.(body := s.body.(velocity := Vec2(0.0, s.clocks.currentJumpForce)),
           clocks := s.clocks.(jumpTimeCounter := s.clocks.jumpTimeCounter - dt))
      else s.(modes := s.modes.(isJumping := false))
    else s
  }

  /** A held jump button, other than the ledge case: a ground or wall jump
      on the first frame, else a midair jump on the first frame, else the
      jump keeps rising while its time lasts and ends when it runs out. */
  function HeldJump(s: Locomotion, cfg: Tuning, dt: real): (r: Locomotion)
    ensures Consistent(s) ==> Consistent(r)
    ensures CanJump(s) && s.counters.previousJumpFrames == 0 ==>
      r.modes.isJumping && r.clocks.jumpTimeCounter == cfg.jumpTime &&
      r.body.velocity == Vec2(0.0, s.clocks.currentJumpForce) && !r.entity.isCrouched
    ensures r.counters.midairJumps != s.counters.midairJumps ==>
      s.entity.unlockedDoubleJump && s.counters.midairJumps > 0 && s.counters.previousJumpFrames == 0 &&
      !CanJump(s) && r.counters.midairJumps == s.counters.midairJumps - 1 && r.modes.isJumping
    ensures r.counters.midairJumps == s.counters.midairJumps || r.counters.midairJumps == s.counters.midairJumps - 1
    ensures r.counters.previousJumpFrames == s.counters.previousJumpFrames
    ensures r.counters.previousDownFrames == s.counters.previousDownFrames
    ensures r.counters.previousUpFrames == s.counters.previousUpFrames
    ensures r.ledge == s.ledge && r.invokes == s.invokes
    ensures SameHeading(r.modes, s.modes)
    ensures r.entity == s.entity || r.entity == s.entity.(isCrouched := false)
    ensures CanMidairJump(s) ==>
      r.counters.midairJumps == s.counters.midairJumps - 1 && r.modes.isJumping &&
      r.clocks.jumpTimeCounter == cfg.jumpTime && r.body.velocity == Vec2(0.0, s.clocks.currentJumpForce)
    ensures !StartsJump(s) ==> r == KeepJumping(s, dt)
  {
    if CanJump(s) && s.counters.previousJumpFrames == 0 then
      var u := if s.entity.isCrouched then Uncrouch(s) else s;
      u.(modes := u.modes.(isJumping := true), clocks := u.clocks.(jumpTimeCounter := cfg.jumpTime),
         body := u.body.(velocity := Vec2(0.0, u.clocks.currentJumpForce)))
    else if CanMidairJump(s) then
      s.(counters := s.counters.(midairJumps := s.counters.midairJumps - 1),
         modes := s.modes.(isJumping := true), clocks := s.clocks.(jumpTimeCounter := cfg.jumpTime),
         body := s.body.(velocity := Vec2(0.0, s.clocks.currentJumpForce)))
    else KeepJumping(s, dt)
  }

  /** Jump handling other than the ledge case; letting go of the button, or
      dashing, ends the jump and resets the frame counter. */
  function Jump(s: Locomotion, cfg: Tuning, jump: bool, dt: real): (r: Locomotion)
    ensures Consistent(s) ==> Consistent(r)
    ensures !jump || Dashing(s) ==>
      r == s.(modes := s.modes.(isJumping := false), counters := s.counters.(previousJumpFrames := 0))
    ensures jump && !Dashing(s) ==> r.counters.previousJumpFrames == s.counters.previousJumpFrames + 1
    ensures r.counters.midairJumps != s.counters.midairJumps ==>
      jump && !Dashing(s) && s.entity.unlockedDoubleJump && s.counters.midairJumps > 0 &&
      s.counters.previousJumpFrames == 0 && !CanJump(s) &&
      r.counters.midairJumps == s.counters.midairJumps - 1 && r.modes.isJumping
    ensures r.counters.midairJumps == s.counters.midairJumps || r.counters.midairJumps == s.counters.midairJumps - 1
    ensures r.counters.previousDownFrames == s.counters.previousDownFrames
    ensures r.counters.previousUpFrames == s.counters.previousUpFrames
    ensures r.ledge == s.ledge && r.invokes == s.invokes
    ensures SameHeading(r.modes, s.modes)
    ensures r.entity == s.entity || r.entity == s.entity.(isCrouched := false)
    ensures jump && !Dashing(s) && CanJump(s) && s.counters.previousJumpFrames == 0 ==>
      r.modes.isJumping && r.clocks.jumpTimeCounter == cfg.jumpTime &&
      r.body.velocity == Vec2(0.0, s.clocks.currentJumpForce) && !r.entity.isCrouched
    ensures jump && !Dashing(s) && CanMidairJump(s) ==>
      r.counters.midairJumps == s.counters.midairJumps - 1 && r.modes.isJumping &&
      r.clocks.jumpTimeCounter == cfg.jumpTime && r.body.velocity == Vec2(0.0, s.clocks.currentJumpForce)
    ensures jump && !Dashing(s) && !StartsJump(s) && s.modes.isJumping && s.clocks.jumpTimeCounter > 0.0 ==>
      r.modes.isJumping && r.body.velocity == Vec2(0.0, s.clocks.currentJumpForce) &&
      r.clocks.jumpTimeCounter == s.clocks.jumpTimeCounter - dt
    ensures jump && !Dashing(s) && !StartsJump(s) && s.modes.isJumping && s.clocks.jumpTimeCounter <= 0.0 ==>
      !r.modes.isJumping && r.body == s.body
  {
    if jump && !Dashing(s) then
      var t := HeldJump(s, cfg, dt);
      t.(counters := t.counters.(previousJumpFrames := t.counters.previousJumpFrames + 1))
    else s.(modes := s.modes.(isJumping := false), counters := s.counters.(previousJumpFrames := 0))
  }

  /** Horizontal running, unless dashing or hanging; a horizontal input
      stands the player up from a crouch. Vertical velocity is kept. */
  function Run(s: Locomotion, x: real): (r: Locomotion)
    ensures Consistent(s) ==> Consistent(r)
    ensures Dashing(s) || HangingToLedge(s) ==> r == s
    ensures !Dashing(s) && !HangingToLedge(s) ==>
      r.body.velocity == Vec2(s.clocks.currentMoveSpeed * x, s.body.velocity.y) &&
      r.entity.isCrouched == (s.entity.isCrouched && Abs(x) < Deadzone)
    ensures r.ledge == s.ledge && r.modes == s.modes && r.clocks == s.clocks && r.counters == s.counters &&
            r.invokes == s.invokes
    ensures r.entity == s.entity || r.entity == s.entity.(isCrouched := false)
  {
    if !Dashing(s) && !HangingToLedge(s) then
      var u := if s.entity.isCrouched && Abs(x) >= Deadzone then Uncrouch(s) else s;
      u.(body := u.body.(velocity := Vec2(u.clocks.currentMoveSpeed * x, u.body.velocity.y)))
    else s
  }

  /** The end of `Move`: the ledge jump, which ends the tick, or else the
      jump handling followed by the run. */
  function JumpAndRun(a: Locomotion, cfg: Tuning, c: Controls, dt: real): Locomotion {
    if TakesLedgeJump(a, c) then LedgeJump(a, cfg, c.x)
    else Run(Jump(a, cfg, c.jump, dt), c.x)
  }

  /** One physics tick of `Move`. */
  function Move(s: Locomotion, cfg: Tuning, c: Controls, dt: real): Locomotion {
    JumpAndRun(BeforeJump(s, cfg, c, dt), cfg, c, dt)
  }

  // ---------------------------------------------------------------------
  // Ledge detection (run every frame from `Update`)

  /** Classifies what the rays see. Detection is off while it is paused,
      while hanging, crouched or morphed. A wall with the top ray hit and the
      bottom ray clear is a morph ledge; a wall with both ledge rays clear is
      a standard ledge. A classification already set is not set again. */
  function CheckSurroundings(s: Locomotion, rays: RayHits): (r: Locomotion)
    ensures Consistent(s) ==> Consistent(r)
    ensures !s.ledge.canDetectLedge || HangingToLedge(s) || s.entity.isCrouched || s.entity.isMorphed ==>
      r.ledge == s.ledge.(detectedWall := false, detectedLedgeBottom := false, detectedLedgeTop := false)
    ensures r.ledge.ledgeDetectedMorph && !s.ledge.ledgeDetectedMorph ==>
      !r.ledge.ledgeDetected && rays.wall && !rays.ledgeBottom && rays.ledgeTop
    ensures r.ledge.ledgeDetected && !s.ledge.ledgeDetected ==>
      !r.ledge.ledgeDetectedMorph && rays.wall && !rays.ledgeBottom && !rays.ledgeTop
    ensures (r.ledge.ledgeDetected == s.ledge.ledgeDetected && r.ledge.ledgeDetectedMorph == s.ledge.ledgeDetectedMorph) ||
            r.ledge.ledgeDetected != r.ledge.ledgeDetectedMorph
    ensures s.ledge.canDetectLedge && !HangingToLedge(s) && !s.entity.isCrouched && !s.entity.isMorphed ==>
      r.ledge.detectedWall == rays.wall && r.ledge.detectedLedgeBottom == rays.ledgeBottom &&
      r.ledge.detectedLedgeTop == rays.ledgeTop &&
      (rays.wall && !rays.ledgeBottom && rays.ledgeTop ==> r.ledge.ledgeDetectedMorph) &&
      (rays.wall && !rays.ledgeBottom && !rays.ledgeTop ==> r.ledge.ledgeDetected)
    ensures r.ledge.ledgePosBottom != s.ledge.ledgePosBottom ==> r.ledge.ledgePosBottom == rays.wallRayOrigin
    ensures r == s.(ledge := r.ledge)
    ensures r.ledge.canClimbLedge == s.ledge.canClimbLedge && r.ledge.canClimbLedgeMorph == s.ledge.canClimbLedgeMorph
  {
    if !s.ledge.canDetectLedge || HangingToLedge(s) || s.entity.isCrouched || s.entity.isMorphed then
      s.(ledge := s.ledge.(detectedWall := false, detectedLedgeBottom := false, detectedLedgeTop := false))
    else
      var l := s.ledge.(detectedWall := rays.wall, detectedLedgeBottom := rays.ledgeBottom, detectedLedgeTop := rays.ledgeTop);
      if l.detectedWall && !l.detectedLedgeBottom && l.detectedLedgeTop && !l.ledgeDetectedMorph then
        s.(ledge := l.(ledgeDetectedMorph := true, ledgeDetected := false, ledgePosBottom := rays.wallRayOrigin))
      else if !l.detectedLedgeBottom && l.detectedWall && !l.detectedLedgeBottom && !l.detectedLedgeTop &&
              !l.ledgeDetected then
        s.(ledge := l.(ledgeDetected := true, ledgeDetectedMorph := false, ledgePosBottom := rays.wallRayOrigin))
      else s.(ledge := l)
  }

  /** `Mathf.Floor`. */
  function Floor(v: real): (r: real)
    ensures r <= v < r + 1.0
    ensures r == r.Floor as real
  {
    v.Floor as real
  }

  /** The two anchors of a ledge: where the player hangs and where the climb
      ends, from the floor of the ledge corner and the offsets. */
  function LedgeAnchors(facingRight: bool, bottom: Vec2, cfg: Tuning): (r: (Vec2, Vec2))
    ensures r.1.y - r.0.y == cfg.ledgeOffsetY2 - cfg.ledgeOffsetY1
    ensures facingRight ==> r.1.x - r.0.x == cfg.ledgeOffsetX1 + cfg.ledgeOffsetX2
    ensures !facingRight ==> r.0.x - r.1.x == cfg.ledgeOffsetX1 + cfg.ledgeOffsetX2
  {
    if facingRight then
      (Vec2(Floor(bottom.x + cfg.detectionRange) - cfg.ledgeOffsetX1, Floor(bottom.y) + cfg.ledgeOffsetY1),
       Vec2(Floor(bottom.x + cfg.detectionRange) + cfg.ledgeOffsetX2, Floor(bottom.y) + cfg.ledgeOffsetY2))
    else
      (Vec2(Floor(bottom.x) + cfg.ledgeOffsetX1, Floor(bottom.y) + cfg.ledgeOffsetY1),
       Vec2(Floor(bottom.x) - cfg.ledgeOffsetX2, Floor(bottom.y) + cfg.ledgeOffsetY2))
  }

  /** Both anchors hang off one ledge corner on the whole-number grid: the
      corner is the floor of the point the ledge rays start from (shifted by
      the detection range when facing right), and the hang anchor sits at the
      first offsets from it. */
  lemma {:induction false} LedgeAnchorsOnGrid(facingRight: bool, bottom: Vec2, cfg: Tuning)
    ensures var cornerY := LedgeAnchors(facingRight, bottom, cfg).0.y - cfg.ledgeOffsetY1;
      cornerY == Floor(cornerY) && bottom.y - 1.0 < cornerY <= bottom.y
    ensures facingRight ==> var cornerX := LedgeAnchors(facingRight, bottom, cfg).0.x + cfg.ledgeOffsetX1;
      cornerX == Floor(cornerX) && bottom.x + cfg.detectionRange - 1.0 < cornerX <= bottom.x + cfg.detectionRange
    ensures !facingRight ==> var cornerX := LedgeAnchors(facingRight, bottom, cfg).0.x - cfg.ledgeOffsetX1;
      cornerX == Floor(cornerX) && bottom.x - 1.0 < cornerX <= bottom.x
  {
    var fy := Floor(bottom.y);
    assert LedgeAnchors(facingRight, bottom, cfg).0.y - cfg.ledgeOffsetY1 == fy;
    assert Floor(fy) == fy;
    if facingRight {
      var fx := Floor(bottom.x + cfg.detectionRange);
      assert LedgeAnchors(facingRight, bottom, cfg).0.x + cfg.ledgeOffsetX1 == fx;
      assert Floor(fx) == fx;
    } else {
      var fx := Floor(bottom.x);
      assert LedgeAnchors(facingRight, bottom, cfg).0.x - cfg.ledgeOffsetX1 == fx;
      assert Floor(fx) == fx;
    }
  }

  /** Turns a detected ledge into a hang (the morph ledge first), computes
      the anchors and pins the player to the hang anchor while hanging. */
  function CheckLedgeClimb(s: Locomotion, cfg: Tuning): (r: Locomotion)
    ensures Consistent(s) ==> Consistent(r)
    ensures !s.ledge.canDetectLedge || s.entity.isMorphed || s.entity.isCrouched ==> r == s
    ensures r.ledge.canClimbLedgeMorph != s.ledge.canClimbLedgeMorph ==>
      r.ledge.canClimbLedgeMorph && !r.ledge.canClimbLedge && s.ledge.ledgeDetectedMorph
    ensures r.ledge.canClimbLedge != s.ledge.canClimbLedge ==>
      (r.ledge.canClimbLedge && !r.ledge.canClimbLedgeMorph && s.ledge.ledgeDetected) ||
      (!r.ledge.canClimbLedge && r.ledge.canClimbLedgeMorph)
    ensures (r.ledge.canClimbLedge == s.ledge.canClimbLedge && r.ledge.canClimbLedgeMorph == s.ledge.canClimbLedgeMorph) ||
            r.ledge.canClimbLedge != r.ledge.canClimbLedgeMorph
    ensures s.ledge.canDetectLedge && !s.entity.isMorphed && !s.entity.isCrouched && HangingToLedge(r) ==>
      r.body.position == r.ledge.ledgePos1
    ensures r.modes == s.modes && r.clocks == s.clocks && r.counters == s.counters && r.entity == s.entity &&
            r.invokes == s.invokes && r.body == s.body.(position := r.body.position)
    ensures r.ledge.ledgeDetected == s.ledge.ledgeDetected && r.ledge.ledgeDetectedMorph == s.ledge.ledgeDetectedMorph
    ensures s.ledge.canDetectLedge && !s.entity.isMorphed && !s.entity.isCrouched ==>
      (s.ledge.ledgeDetectedMorph ==> r.ledge.canClimbLedgeMorph) &&
      (s.ledge.ledgeDetected && !s.ledge.ledgeDetectedMorph && !s.ledge.canClimbLedgeMorph ==> r.ledge.canClimbLedge) &&
      (r.ledge.ledgePos1, r.ledge.ledgePos2) == LedgeAnchors(s.modes.facingRight, s.ledge.ledgePosBottom, cfg) &&
      r.ledge.ledgePosBottom == s.ledge.ledgePosBottom
  {
    if !s.ledge.canDetectLedge || s.entity.isMorphed || s.entity.isCrouched then s
    else
      var a := if s.ledge.ledgeDetectedMorph && !s.ledge.canClimbLedgeMorph
               then s.ledge.(canClimbLedgeMorph := true, canClimbLedge := false) else s.ledge;
      var b := if !a.canClimbLedgeMorph && a.ledgeDetected && !a.canClimbLedge
               then a.(canClimbLedge := true, canClimbLedgeMorph := false) else a;
      var anchors := LedgeAnchors(s.modes.facingRight, b.ledgePosBottom, cfg);
      var l := b.(ledgePos1 := anchors.0, ledgePos2 := anchors.1);
      if l.canClimbLedge || l.canClimbLedgeMorph then s.(ledge := l, body := s.body.(position := l.ledgePos1))
      else s.(ledge := l)
  }

  /** The buff and cooldown clocks run down by `dt`; a running buff selects
      the boosted jump force or run speed. */
  function RunDownClocks(c: Clocks, cfg: Tuning, dt: real): (r: Clocks)
    ensures r.dashCooldownLeft == c.dashCooldownLeft - dt
    ensures r.currentJumpTimer == c.currentJumpTimer - dt && r.currentMoveTimer == c.currentMoveTimer - dt
    ensures r.currentJumpForce == if r.currentJumpTimer < 0.0 then cfg.normalJumpForce else cfg.boostedJumpForce
    ensures r.currentMoveSpeed == if r.currentMoveTimer < 0.0 then cfg.normalMoveSpeed else cfg.boostedMoveSpeed
    ensures r.dashTime == c.dashTime && r.jumpTimeCounter == c.jumpTimeCounter
  {
    var jumpTimer := c.currentJumpTimer - dt;
    var moveTimer := c.currentMoveTimer - dt;
    c.(dashCooldownLeft := c.dashCooldownLeft - dt,
       currentJumpTimer := jumpTimer,
       currentJumpForce := if jumpTimer < 0.0 then cfg.normalJumpForce else cfg.boostedJumpForce,
       currentMoveTimer := moveTimer,
       currentMoveSpeed := if moveTimer < 0.0 then cfg.normalMoveSpeed else cfg.boostedMoveSpeed)
  }

  /** The timed part of `Update`: the clocks run down and the somersault flag
      follows the horizontal speed. */
  function TickClocks(s: Locomotion, cfg: Tuning, dt: real): (r: Locomotion)
    ensures Consistent(s) ==> Consistent(r)
    ensures r.clocks == RunDownClocks(s.clocks, cfg, dt)
    ensures r.modes.isSomersaulting <==> !r.modes.isGrounded && Abs(r.body.velocity.x) >= cfg.somersaultThreshold
    ensures SameHeading(r.modes, s.modes) && r.modes.isGrounded == s.modes.isGrounded
    ensures r.ledge == s.ledge && r.counters == s.counters && r.body == s.body && r.entity == s.entity &&
            r.invokes == s.invokes
  {
    s.(clocks := RunDownClocks(s.clocks, cfg, dt),
       modes := s.modes.(isSomersaulting := !s.modes.isGrounded && Abs(s.body.velocity.x) >= cfg.somersaultThreshold))
  }

  /** One frame of `Update`: the two ledge checks, then the clocks. */
  function FrameUpdate(s: Locomotion, cfg: Tuning, rays: RayHits, dt: real): Locomotion {
    TickClocks(CheckLedgeClimb(CheckSurroundings(s, rays), cfg), cfg, dt)
  }

  // ---------------------------------------------------------------------
  // Scheduled callbacks

  /** The climb ends at the top anchor with the controls frozen for a while.
      A morph-ledge climb needs the morph ball; without it nothing happens. */
  function FinishClimb(s: Locomotion, cfg: Tuning): (r: Locomotion)
    ensures Consistent(s) ==> Consistent(r)
    ensures s.ledge.canClimbLedgeMorph && !s.entity.unlockedMorphBall ==> r == s
    ensures !(s.ledge.canClimbLedgeMorph && !s.entity.unlockedMorphBall) ==>
      !HangingToLedge(r) && !r.ledge.ledgeDetected && !r.ledge.ledgeDetectedMorph &&
      r.body == Body(Zero, FreezeAll, s.ledge.ledgePos2) && r.entity.frozeControls &&
      r.invokes == s.invokes + [Invocation(RegainControl, cfg.ledgeFreezeControlsWindow)] &&
      r.entity.isMorphed == (s.entity.isMorphed || s.ledge.canClimbLedgeMorph)
    ensures r.clocks == s.clocks && r.counters == s.counters
    ensures r.modes == s.modes.(fakeMidairCrouch := r.modes.fakeMidairCrouch)
    ensures SameUnlocks(r.entity, s.entity)
    ensures !(s.ledge.canClimbLedgeMorph && !s.entity.unlockedMorphBall) ==>
      r.ledge == s.ledge.(canClimbLedge := false, canClimbLedgeMorph := false, ledgeDetected := false, ledgeDetectedMorph := false)
  {
    if s.ledge.canClimbLedgeMorph && !s.entity.unlockedMorphBall then s
    else
      var m := if s.ledge.canClimbLedgeMorph then Morph(s) else s;
      var t := Schedule(m, RegainControl, cfg.ledgeFreezeControlsWindow);
      t.(body := Body(Zero, FreezeAll, t.ledge.ledgePos2),
         entity := t.entity.(frozeControls := true),
         ledge := t.ledge.(canClimbLedge := false, canClimbLedgeMorph := false,
                           ledgeDetected := false, ledgeDetectedMorph := false))
  }

  /** What each scheduled callback does when the engine runs it. */
  function Fire(s: Locomotion, cfg: Tuning, cb: Callback): (r: Locomotion)
    ensures cb != FinishLedgeClimb ==>
      r == s.(modes := r.modes, ledge := r.ledge, body := r.body, entity := r.entity) &&
      r.body.velocity == s.body.velocity && r.body.position == s.body.position &&
      SameUnlocks(r.entity, s.entity)
  {
    match cb
    case StopWallJump => s.(modes := s.modes.(canWallJump := false))
    case ReCheckLedges => s.(ledge := s.ledge.(canDetectLedge := true))
    case FinishLedgeClimb => FinishClimb(s, cfg)
    case RegainControl =>
      s.(ledge := s.ledge.(isClimbing := false), body := s.body.(constraints := FreezeRotation),
         entity := s.entity.(frozeControls := false))
    case ResetMidAirMorphWindow => s.(modes := s.modes.(fakeMidairCrouch := false))
  }

  // ---------------------------------------------------------------------
  // Contact-sensor edges

  datatype Sensor = Feet | LeftWall | RightWall

  /** Landing re-enables ledge detection and ends the jump and somersault;
      touching a wall ends any dash. */
  function ContactStarted(s: Locomotion, sensor: Sensor): (r: Locomotion)
    ensures Consistent(s) ==> Consistent(r)
    ensures sensor == Feet ==>
      r.modes.isGrounded && r.ledge.canDetectLedge && r.counters.midairJumps == 0 &&
      !r.modes.isJumping && !r.modes.isSomersaulting
    ensures sensor != Feet ==> !Dashing(r) && r.body.constraints == FreezeRotation
    ensures sensor == LeftWall ==> r.modes.isHuggingWallLeft
    ensures sensor == RightWall ==> r.modes.isHuggingWallRight
    ensures r.clocks == s.clocks && r.entity == s.entity && r.invokes == s.invokes &&
            r.body.velocity == s.body.velocity && r.body.position == s.body.position
    ensures sensor == Feet ==>
      r.body == s.body && r.counters == s.counters.(midairJumps := 0) && r.ledge == s.ledge.(canDetectLedge := true) &&
      r.modes == s.modes.(isGrounded := true, isJumping := false, isSomersaulting := false)
    ensures sensor != Feet ==>
      r.ledge == s.ledge && r.counters == s.counters &&
      r.modes == s.modes.(dashingLeft := false, dashingRight := false,
                          isHuggingWallLeft := s.modes.isHuggingWallLeft || sensor == LeftWall,
                          isHuggingWallRight := s.modes.isHuggingWallRight || sensor == RightWall)
  {
    match sensor
    case Feet =>
      s.(ledge := s.ledge.(canDetectLedge := true),
         modes := s.modes.(isGrounded := true, isJumping := false, isSomersaulting := false),
         counters := s.counters.(midairJumps := 0))
    case LeftWall =>
      s.(modes := s.modes.(isHuggingWallLeft := true, dashingLeft := false, dashingRight := false),
         body := s.body.(constraints := FreezeRotation))
    case RightWall =>
      s.(modes := s.modes.(isHuggingWallRight := true, dashingLeft := false, dashingRight := false),
         body := s.body.(constraints := FreezeRotation))
  }

  function ContactStopped(s: Locomotion, sensor: Sensor): (r: Locomotion)
    ensures Consistent(s) ==> Consistent(r)
    ensures r.modes.isGrounded == (s.modes.isGrounded && sensor != Feet)
    ensures r.modes.isHuggingWallLeft == (s.modes.isHuggingWallLeft && sensor != LeftWall)
    ensures r.modes.isHuggingWallRight == (s.modes.isHuggingWallRight && sensor != RightWall)
    ensures r == s.(modes := s.modes.(isGrounded := r.modes.isGrounded,
      isHuggingWallLeft := r.modes.isHuggingWallLeft, isHuggingWallRight := r.modes.isHuggingWallRight))
  {
    match sensor
    case Feet => s.(modes := s.modes.(isGrounded := false))
    case LeftWall => s.(modes := s.modes.(isHuggingWallLeft := false))
    case RightWall => s.(modes := s.modes.(isHuggingWallRight := false))
  }

  // ---------------------------------------------------------------------
  // Buff timers

  /** How a buff timer grows: a spent (negative) timer counts as zero, the
      extra time is added and the total is capped. */
  function ExtendBuff(timer: real, time: real, cap: real): (r: real)
    ensures 0.0 <= cap ==> 0.0 <= r <= cap
    ensures 0.0 <= timer && 0.0 <= timer + time <= cap ==> r == timer + time
    ensures timer < 0.0 && 0.0 <= time <= cap ==> r == time
    ensures (if timer < 0.0 then 0.0 else timer) + time < 0.0 ==> r == 0.0
    ensures 0.0 <= cap && (if timer < 0.0 then 0.0 else timer) + time > cap ==> r == cap
  {
    Clamp((if timer < 0.0 then 0.0 else timer) + time, 0.0, cap)
  }

  function IncreaseMoveTimer(s: Locomotion, cfg: Tuning, time: real): (r: Locomotion)
    ensures Consistent(s) ==> Consistent(r)
    ensures 0.0 <= cfg.maxSpeedBuffTime ==> 0.0 <= r.clocks.currentMoveTimer <= cfg.maxSpeedBuffTime
    ensures r == s.(clocks := s.clocks.(currentMoveTimer := r.clocks.currentMoveTimer))
    ensures 0.0 <= s.clocks.currentMoveTimer && 0.0 <= s.clocks.currentMoveTimer + time <= cfg.maxSpeedBuffTime ==>
      r.clocks.currentMoveTimer == s.clocks.currentMoveTimer + time
    ensures s.clocks.currentMoveTimer < 0.0 && 0.0 <= time <= cfg.maxSpeedBuffTime ==> r.clocks.currentMoveTimer == time
    ensures (if s.clocks.currentMoveTimer < 0.0 then 0.0 else s.clocks.currentMoveTimer) + time < 0.0 ==>
      r.clocks.currentMoveTimer == 0.0
    ensures 0.0 <= cfg.maxSpeedBuffTime &&
            (if s.clocks.currentMoveTimer < 0.0 then 0.0 else s.clocks.currentMoveTimer) + time > cfg.maxSpeedBuffTime ==>
      r.clocks.currentMoveTimer == cfg.maxSpeedBuffTime
  {
    s.(clocks := s.clocks.(currentMoveTimer := ExtendBuff(s.clocks.currentMoveTimer, time, cfg.maxSpeedBuffTime)))
  }

  /** As written: the jump buff is recomputed from the move-buff timer, and
      the jump timer's own value is discarded. */
  function IncreaseJumpTimer(s: Locomotion, cfg: Tuning, time: real): (r: Locomotion)
    ensures Consistent(s) ==> Consistent(r)
    ensures 0.0 <= cfg.maxJumpBuffTime ==> 0.0 <= r.clocks.currentJumpTimer <= cfg.maxJumpBuffTime
    ensures r == s.(clocks := s.clocks.(currentJumpTimer := r.clocks.currentJumpTimer))
    ensures 0.0 <= s.clocks.currentMoveTimer + time <= cfg.maxJumpBuffTime ==>
      r.clocks.currentJumpTimer == s.clocks.currentMoveTimer + time
    ensures s.clocks.currentMoveTimer + time < 0.0 ==> r.clocks.currentJumpTimer == 0.0
    ensures 0.0 <= cfg.maxJumpBuffTime && s.clocks.currentMoveTimer + time > cfg.maxJumpBuffTime ==>
      r.clocks.currentJumpTimer == cfg.maxJumpBuffTime
  {
    s.(clocks := s.clocks.(currentJumpTimer := Clamp(s.clocks.currentMoveTimer + time, 0.0, cfg.maxJumpBuffTime)))
  }

  /** The jump-buff update the method evidently means: the move buff's rule
      applied to the jump timer. */
  function IntendedIncreaseJumpTimer(s: Locomotion, cfg: Tuning, time: real): (r: Locomotion)
    ensures Consistent(s) ==> Consistent(r)
    ensures 0.0 <= cfg.maxJumpBuffTime ==> 0.0 <= r.clocks.currentJumpTimer <= cfg.maxJumpBuffTime
    ensures 0.0 <= s.clocks.currentJumpTimer && 0.0 <= s.clocks.currentJumpTimer + time <= cfg.maxJumpBuffTime ==>
      r.clocks.currentJumpTimer == s.clocks.currentJumpTimer + time
    ensures r == s.(clocks := s.clocks.(currentJumpTimer := r.clocks.currentJumpTimer))
  {
    s.(clocks := s.clocks.(currentJumpTimer := ExtendBuff(s.clocks.currentJumpTimer, time, cfg.maxJumpBuffTime)))
  }

  // ---------------------------------------------------------------------
  // Everything that can happen to the controller, for reasoning about runs

  datatype PlayerEvent =
    | FixedTick(controls: Controls, dt: real)
    | Frame(rays: RayHits, dt: real)
    | Touch(sensor: Sensor, started: bool)
    | Invoked(callback: Callback)
    | JumpBuff(time: real)
    | MoveBuff(time: real)

  function Apply(s: Locomotion, cfg: Tuning, e: PlayerEvent): Locomotion {
    match e
    case FixedTick(c, dt) => Move(s, cfg, c, dt)
    case Frame(rays, dt) => FrameUpdate(s, cfg, rays, dt)
    case Touch(sensor, started) => if started then ContactStarted(s, sensor) else ContactStopped(s, sensor)
    case Invoked(cb) => Fire(s, cfg, cb)
    case JumpBuff(t) => IncreaseJumpTimer(s, cfg, t)
    case MoveBuff(t) => IncreaseMoveTimer(s, cfg, t)
  }

  /** The state after a run of events, applied first to last. */
  function Replay(s: Locomotion, cfg: Tuning, es: seq<PlayerEvent>): Locomotion
    decreases |es|
  {
    if es == [] then s else Replay(Apply(s, cfg, es[0]), cfg, es[1..])
  }
}

=== FILE: TimedButton.dfy ===
/** A button that opens its target while pressed and closes it again once
    its cooldown has run out, or when it is released. */
module TimedButtonSpec {

  datatype Sprite = BeforeHitting | AfterHitting

  /** The calls the button makes on the object it opens. */
  datatype DoorCall = Open | Close

  datatype Button = Button(pressed: bool, timer: real, sprite: Sprite, door: seq<DoorCall>)

  /** `Start`: the timer is loaded with the cooldown and the idle sprite
      shown; the pressed flag is left as it is. */
  function Start(b: Button, pressedCooldown: real): (r: Button)
    ensures r.timer == pressedCooldown && r.sprite == BeforeHitting
    ensures r.pressed == b.pressed && r.door == b.door
  {
    b.(timer := pressedCooldown, sprite := BeforeHitting)
  }

  function HitSprite(b: Button): (r: Button)
    ensures r.pressed && r.sprite == AfterHitting
    ensures r.door == b.door + [Open] && r.timer == b.timer
  {
    b.(sprite := AfterHitting, pressed := true, door := b.door + [Open])
  }

  function NormalSprite(b: Button): (r: Button)
    ensures !r.pressed && r.sprite == BeforeHitting
    ensures r.door == b.door + [Close] && r.timer == b.timer
  {
    b.(sprite := BeforeHitting, pressed := false, door := b.door + [Close])
  }

  /** Pressing reloads the timer and opens the target. */
  function Press(b: Button, pressedCooldown: real): (r: Button)
    ensures r.pressed && r.timer == pressedCooldown && r.sprite == AfterHitting
    ensures r.door == b.door + [Open]
  {
    HitSprite(b.(timer := pressedCooldown))
  }

  /** Releasing empties the timer and closes the target. */
  function UnPress(b: Button): (r: Button)
    ensures !r.pressed && r.timer == 0.0 && r.sprite == BeforeHitting
    ensures r.door == b.door + [Close]
  {
    NormalSprite(b.(timer := 0.0))
  }

  /** One frame of `dt` seconds: the timer runs only while pressed, and a
      spent timer releases the button and closes the target, on every frame
      it stays spent. */
  function Tick(b: Button, dt: real): (r: Button)
    ensures r.timer == if b.pressed then b.timer - dt else b.timer
    ensures r.timer <= 0.0 ==> !r.pressed && r.sprite == BeforeHitting && r.door == b.door + [Close]
    ensures r.timer > 0.0 ==> r.pressed == b.pressed && r.sprite == b.sprite && r.door == b.door
  {
    var t := if b.pressed then b.(timer := b.timer - dt) else b;
    if t.timer <= 0.0 then NormalSprite(t) else t
  }

  /** Frames of the given lengths, in order. */
  function Ticks(b: Button, dts: seq<real>): Button
    decreases |dts|
  {
    if dts == [] then b else Ticks(Tick(b, dts[0]), dts[1..])
  }

  function Sum(dts: seq<real>): real
    decreases |dts|
  {
    if dts == [] then 0.0 else dts[0] + Sum(dts[1..])
  }

  lemma {:induction false} SumNonNegative(dts: seq<real>)
    requires forall i :: 0 <= i < |dts| ==> dts[i] >= 0.0
    ensures Sum(dts) >= 0.0
    decreases |dts|
  {
    if dts != [] {
      SumNonNegative(dts[1..]);
    }
  }

  /** After one frame or more, the button is still pressed exactly when it
      was pressed before and the frames have not used up its timer; while it
      stays pressed the timer has run down by the time passed, and no call
      has been made on the target. */
  lemma {:induction false} TicksRunDownTimer(b: Button, dts: seq<real>)
    requires |dts| > 0
    requires forall i :: 0 <= i < |dts| ==> dts[i] >= 0.0
    ensures Ticks(b, dts).pressed <==> b.pressed && b.timer - Sum(dts) > 0.0
    ensures Ticks(b, dts).pressed ==> Ticks(b, dts).timer == b.timer - Sum(dts)
    ensures Ticks(b, dts).pressed ==> Ticks(b, dts).door == b.door && Ticks(b, dts).sprite == b.sprite
    decreases |dts|
  {
    var b1 := Tick(b, dts[0]);
    if |dts| == 1 {
      assert Ticks(b, dts) == Ticks(b1, dts[1..]) == b1;
      assert Sum(dts) == dts[0] + Sum([]);
    } else {
      var rest := dts[1..];
      assert forall i :: 0 <= i < |rest| ==> rest[i] == dts[i + 1];
      TicksRunDownTimer(b1, rest);
      SumNonNegative(rest);
      assert Ticks(b, dts) == Ticks(b1, rest);
    }
  }

  /** A pressed button stays pressed, with the target open, until the frames
      since the press add up to its cooldown, and is released by the first
      frame that reaches it. */
  lemma PressLastsForCooldown(b: Button, pressedCooldown: real, dts: seq<real>)
    requires |dts| > 0
    requires forall i :: 0 <= i < |dts| ==> dts[i] >= 0.0
    ensures Ticks(Press(b, pressedCooldown), dts).pressed <==> Sum(dts) < pressedCooldown
    ensures Sum(dts) < pressedCooldown ==>
      Ticks(Press(b, pressedCooldown), dts).door == b.door + [Open] &&
      Ticks(Press(b, pressedCooldown), dts).sprite == AfterHitting
  {
    TicksRunDownTimer(Press(b, pressedCooldown), dts);
  }
}

/** The button as the object the game runs. */
module TimedButton {
  import S = TimedButtonSpec

  class TimedButton {
    /** Seconds a press keeps the target open. */
    const pressedCooldown: real
    var pressed: bool
    var timer: real
    var sprite: S.Sprite
    /** The calls made on the target, oldest first. */
    var door: seq<S.DoorCall>

    function State(): S.Button
      reads this
    {
      S.Button(pressed, timer, sprite, door)
    }

    /** The object as the engine loads it: not pressed, the timer at its
        default. */
    constructor (pressedCooldown: real)
      ensures this.pressedCooldown == pressedCooldown
      ensures State() == S.Button(false, 0.0, S.BeforeHitting, [])
    {
      this.pressedCooldown := pressedCooldown;
      pressed := false;
      timer := 0.0;
      sprite := S.BeforeHitting;
      door := [];
    }

    method Start()
      modifies this
      ensures State() == S.Start(old(State()), pressedCooldown)
    {
      timer := pressedCooldown;
      sprite := S.BeforeHitting;
    }

    method Update(dt: real)
      modifies this
      ensures State() == S.Tick(old(State()), dt)
    {
      if pressed {
        timer := timer - dt;
      }
      if timer <= 0.0 {
        NormalSprite();
      }
    }

    method HitSprite()
      modifies this
      ensures State() == S.HitSprite(old(State()))
    {
      sprite := S.AfterHitting;
      pressed := true;
      door := door + [S.Open];
    }

    method NormalSprite()
      modifies this
      ensures State() == S.NormalSprite(old(State()))
    {
      sprite := S.BeforeHitting;
      pressed := false;
      door := door + [S.Close];
    }

    method Press()
      modifies this
      ensures State() == S.Press(old(State()), pressedCooldown)
    {
      timer := pressedCooldown;
      HitSprite();
    }

    method UnPress()
      modifies this
      ensures State() == S.UnPress(old(State()))
    {
      timer := 0.0;
      NormalSprite();
    }
  }
}
